=== FILE: README.md ===
# my-coin ledger core, modelled in Dafny

This project models the ledger logic of the `my-coin` node (TypeScript, `src/`), a small UTXO
cryptocurrency with proof-of-work blocks. It covers five parts:

- **Transactions** (`transaction.dfy`, module `Transactions`):
  - UTXO lookup and input amounts.
  - Transaction ids computed from inputs and outputs.
  - Ordinary, coinbase and per-block validation.
  - Input signing.
- **Transaction pool** (`transaction_pool.dfy`, module `TxPool`):
  - Guarded append.
  - Flattening of pooled inputs.
  - Pruning against a UTXO set.
  - Filtering a UTXO list against pooled inputs.
- **Wallet** (`wallet.dfy`, module `Wallet`):
  - Balance.
  - First-fit coin selection with change.
  - Output construction.
  - Transaction assembly and signing.
- **Chain engine** (`blockchain.dfy`, module `Chain`):
  - Blocks and the proof-of-work search.
  - The genesis-rooted chain and its validation.
  - Cumulative difficulty and the fork-choice rule.
  - Difficulty retargeting, with interval 3 and a one-minute block time.
- **Peer message handling** (`peer_sync.dfy`, module `PeerSync`): the message switch of the
  websocket handler, as a pure function. It maps node state and a message to the new state, the
  reply, and the broadcasts.

Shared pieces:
- `results.dfy` holds `Option` and `Result`.
- `seqs.dfy` holds a reference `Filter`, lodash's `without`, and subsequences.
- `externals.dfy` holds the primitives the ledger calls but does not implement.

**Primitives are parameters.** SHA-256, the secp256k1 key operations (derive public key, sign,
verify), `Date.toISOString` and the JSON text of a transaction array are uninterpreted. They are
fields of a `Primitives` / `ChainEnv` record passed to every operation. Lemmas that need a
cryptographic fact say so in their `requires`. The only such fact is `SignaturesSound`: a signature
made with a key verifies under the key's public key.

**State is a value.** Operations that mutate a chain or pool in place in the source return the new
value, together with the accept/reject flag the source returns. A JavaScript `throw` on an expected
rejection becomes a `Failure` carrying the reason.

## Model

| member | source | states |
|---|---|---|
| Transactions.FindUnspentTxOut | src/blockchain/transaction.ts:7-17 | null exactly when no UTXO has the (id, index) outpoint; otherwise a listed UTXO with that outpoint, and the first one |
| Transactions.FindUniqueOutpoint | src/blockchain/transaction.ts:7-17 | when outpoints are unique, looking up a listed UTXO's outpoint finds that UTXO |
| Transactions.ValidateTxIn | src/blockchain/transaction.ts:30-42 | an input validates iff it references a listed UTXO and the signature verifies against the transaction id under that UTXO's address |
| Transactions.TxInAmount | src/blockchain/transaction.ts:44-47 | 0 when the reference is absent; with unique outpoints, exactly the amount of the UTXO it spends |
| Transactions.InsTextIgnoresSignatures | src/blockchain/transaction.ts:118-120 | the input part of the id pre-image depends only on (id, index) of each input, never on signatures |
| Transactions.IdIgnoresSignatures | src/blockchain/transaction.ts:117-126 | two input lists with the same references give the same id |
| Transactions.NewTx | src/blockchain/transaction.ts:111-115 | a freshly constructed transaction keeps its inputs and outputs and has id == getId() |
| Transactions.ResignedTxKeepsId | src/blockchain/transaction.ts:111-126 | replacing the signatures of a transaction with a valid id keeps the id valid |
| Transactions.ValidateTransaction | src/blockchain/transaction.ts:128-154 | a valid transaction has a correct id, every input referenced, every input's signature verifying against the referenced output's address, and output sum == input sum; conversely correct id, every input present with a verifying signature, and balanced sums make it valid |
| Transactions.ValidateCoinbaseTx | src/blockchain/transaction.ts:156-183 | valid iff the id is correct, there is exactly one input with index == block height, and exactly one output of amount 50 |
| Transactions.SignTxIn | src/blockchain/transaction.ts:195-210 | succeeds iff the input exists, its UTXO is listed and the key's public key equals the UTXO address; an out-of-range index gives NoSuchInput, a missing UTXO gives ReferenceNotFound, and a key whose public key differs from the UTXO address gives KeyMismatch; the signature is over the transaction id |
| Transactions.SignedInputValidates | src/blockchain/transaction.ts:30-42 | with sound signatures, an input carrying the signature signTransactionIn produced passes validateTxIn |
| Transactions.GetCoinbaseTransaction | src/blockchain/transaction.ts:212-217 | the coinbase transaction for (address, height) always passes validateCoinbaseTx(height) and pays 50 to the address |
| Transactions.FlattenInsOrder | src/blockchain/transaction.ts:235-238 | the flattened input list holds input j of transaction k at position (inputs before k) + j, and every element comes from some transaction |
| Transactions.FlattenInsAppend | src/blockchain/transaction.ts:235-238 | flattening distributes over concatenation of transaction lists |
| Transactions.HasDuplicates | src/blockchain/transaction.ts:234-242 | true iff two inputs of the list reference the same (id, index) |
| Transactions.ValidateBlockTransactions | src/blockchain/transaction.ts:223-247 | for a non-empty list: valid iff the first transaction is a valid coinbase for the height, no outpoint repeats across the block's inputs, and every later transaction is valid |
| Transactions.RepeatedInputRejected | src/blockchain/transaction.ts:234-242 | any two inputs anywhere in the block that reference the same outpoint make the block's transactions invalid |
| Transactions.CoinbaseOnlyBlockValid | src/blockchain/transaction.ts:212-247 | a block holding only its coinbase transaction passes validateBlockTransactions |
| TxPool.AddToTransactionPool | src/blockchain/transaction-pool.ts:12-23 | rejects an invalid transaction, then one isValidTxForPool refuses, leaving the pool as it was; a transaction passing both checks is accepted, and on success the pool is the old pool with the transaction appended and all its inputs are present |
| TxPool.GetTxPoolIns | src/blockchain/transaction-pool.ts:25-30 | the in-order concatenation of every pooled transaction's inputs: each position holds an input of some pooled transaction, earlier transactions' inputs first, and the length is the total input count |
| Transactions.FlattenInsLength | src/blockchain/transaction-pool.ts:25-30 | flattening the pool's inputs drops and invents none: the flattened length equals the total input count |
| TxPool.UpdateTransactionPool | src/blockchain/transaction-pool.ts:32-48 | every remaining transaction has all inputs in the UTXO set; exactly the transactions with a missing input are removed, keeping order (equal to the reference filter); the pool is unchanged when nothing is missing |
| TxPool.UpdateTransactionPoolIdempotent | src/blockchain/transaction-pool.ts:32-48 | pruning twice against the same UTXO set equals pruning once |
| TxPool.SpentByAnyIsSpentInPool | src/blockchain/transaction-pool.ts:51-62 | matching an element of the flattened pooled inputs is the same as being spent by some pooled transaction |
| TxPool.FilterTxPoolTxs | src/blockchain/transaction-pool.ts:50-68 | the result is a subsequence of the UTXO list; no element of it is spent by the pool, and every element the pool does not spend is kept; it is exactly the order-preserving filter of the UTXO list by "not spent in the pool" (duplicates included); with an empty pool it is the identity |
| Wallet.BalanceOfNoneOwned | src/wallet/index.ts:42-47 | the balance of an address that owns no listed UTXO is 0 |
| Wallet.BalanceAppend | src/wallet/index.ts:42-47 | the balance over two concatenated UTXO lists is the sum of the two balances |
| Wallet.ScanForAmount | src/wallet/index.ts:50-60 | the selection loop from position k succeeds iff some later prefix sum reaches the amount, and then returns the shortest such prefix |
| Wallet.FindTxOutsForAmount | src/wallet/index.ts:49-61 | fails with NotEnoughCoins iff no non-empty prefix reaches the amount; otherwise the shortest such prefix, whose sum is amount + leftover, with leftover >= 0 and, for a positive amount, below the last included amount |
| Wallet.SelectionSucceedsIffTotalSuffices | src/wallet/index.ts:49-61 | with non-negative amounts, selection succeeds iff the list is non-empty and its total reaches the amount |
| Wallet.NotEnoughCoinsIffBalanceShort | src/wallet/index.ts:42-61 | for a positive amount and non-negative UTXOs, selecting from an address's own outputs fails iff its balance is below the amount |
| Wallet.CreateTxOuts | src/wallet/index.ts:63-71 | first output pays the receiver; one output when the leftover is 0, otherwise a second paying the leftover to the sender; output sum == amount + leftover |
| Wallet.SumInOfSelection | src/wallet/index.ts:90-93 | with unique outpoints, inputs spending the selected UTXOs in order resolve to the selection's total |
| Wallet.OwnInputSigns | src/blockchain/transaction.ts:195-210 | signing an input that spends one of the signer's own listed outputs cannot fail |
| Wallet.SelectionUsable | src/wallet/index.ts:81-88 | every selected UTXO is listed, owned by the sender's public key and not spent by the pool |
| Wallet.AssembledTxFacts | src/wallet/index.ts:90-106 | once every input is signed, the assembled transaction spends the selection in order and has a valid id; under unique outpoints it balances, and with sound signatures it passes validateTransaction |
| Wallet.CreateTransaction | src/wallet/index.ts:73-107 | fails with NotEnoughCoins when selection fails, and otherwise (under unique outpoints) succeeds; inputs correspond one-to-one and in order to selected, owned, unpooled UTXOs; outputs are createTxOuts; the id is valid, every signature is the key's signature of the id, input sum == output sum, and with sound signatures the transaction validates |
| Chain.CalcHash | src/blockchain/blockchain.ts:46-61 | a returned block differs only in nonce and hash; its hash is the recomputed hash and starts with difficulty zeros; the nonce only increases and every skipped nonce fails; no block is returned iff no nonce in the searched range works |
| Chain.NewBlock | src/blockchain/blockchain.ts:27-42 | keeps index, payload, difficulty and previous hash; the timestamp is null iff index 0 with the null payload; a given hash is kept as is; otherwise the hash is searched for and meets the difficulty, and the search fails exactly when no nonce in the tried range works |
| Chain.GenesisIsConstructed | src/blockchain/blockchain.ts:44 | the genesis block is what the constructor builds for index 0, the null payload and difficulty 0, at any clock reading: untimed, hash found at nonce 0 |
| Chain.IsValidChain | src/blockchain/blockchain.ts:104-132 | valid iff non-empty, first block equal to genesis, and every adjacent pair links by hash, recomputes its hash, meets its difficulty, and (after a non-genesis predecessor) has non-null, non-decreasing timestamps |
| Chain.LinksFrom | src/blockchain/blockchain.ts:115-129 | the validation loop from position i succeeds iff every later adjacent pair is a valid link |
| Chain.ValidChainPrefix | src/blockchain/blockchain.ts:104-132 | every non-empty prefix of a valid chain is valid |
| Chain.ValidChainExtend | src/blockchain/blockchain.ts:104-132 | appending a block that validly links to the tip keeps a chain valid |
| Chain.NewBlockchain | src/blockchain/blockchain.ts:68-83 | always a non-empty valid chain starting at genesis: the supplied chain if valid, otherwise [genesis] |
| Chain.CumulativeOfGenesis | src/blockchain/blockchain.ts:134-141 | the genesis-only chain weighs 1 |
| Chain.Pow2Add | src/blockchain/blockchain.ts:137 | 2^(a+b) = 2^a * 2^b, so one more unit of difficulty doubles a block's weight |
| Chain.CumulativeAppend | src/blockchain/blockchain.ts:134-141 | appending a block adds 2^difficulty, so the weight strictly grows |
| Chain.CumulativePrefix | src/blockchain/blockchain.ts:134-141 | a prefix never weighs more than the chain |
| Chain.CumulativeRaise | src/blockchain/blockchain.ts:134-141 | raising one block's difficulty by k adds exactly 2^d * (2^k - 1) to the chain's weight, so one extra unit of difficulty adds 2^d |
| Chain.AddBlock | src/blockchain/blockchain.ts:92-102 | accepts iff a block is given and its prevHash equals the tip hash; then appends exactly that block (length + 1); otherwise the chain is unchanged |
| Chain.ReplaceChain | src/blockchain/blockchain.ts:143-151 | accepts iff the candidate is valid and the local weight is not greater than the candidate's, so ties replace; then the chain is the candidate, otherwise unchanged |
| Chain.ReplaceChainKeepsInvariants | src/blockchain/blockchain.ts:143-151 | replacement never lowers the cumulative difficulty and never turns a valid chain into an invalid one |
| Chain.EqualWeightReplaces | src/blockchain/blockchain.ts:146 | a valid candidate of exactly the local weight is adopted |
| Chain.GetDifficulty | src/blockchain/blockchain.ts:153-171 | the tip's difficulty off an adjustment point; at one, the difficulty of the block one interval back, lowered by 1 iff the interval took more than twice 3 minutes, raised by 1 iff it took under half, never clamped; a missing timestamp or block fails |
| Chain.MineBlock | src/blockchain/blockchain.ts:85-90 | the mined block has index = chain length, prevHash = tip hash, the current difficulty, the clock's timestamp and a hash meeting that difficulty; a negative difficulty or unavailable difficulty fails; the search is reported exhausted exactly when the difficulty is non-negative and no nonce in the tried range works |
| Chain.MiningAtDifficultyZeroSucceeds | src/blockchain/blockchain.ts:46-61 | at difficulty 0 the first nonce tried meets the target, so mining succeeds |
| Chain.MineThenAddSucceeds | src/blockchain/blockchain.ts:85-102 | addBlock accepts a block freshly mined from the same chain, appending it |
| Chain.MinedBlockExtendsValidChain | src/blockchain/blockchain.ts:85-132 | mining onto a valid chain with a clock not behind the tip gives a valid, strictly heavier chain |
| Chain.RetargetCanGoNegative | src/blockchain/blockchain.ts:163-167 | a slow interval at difficulty 0 retargets to -1, after which mineBlock fails |
| PeerSync.RebuildTxs | src/index.ts:93-108 | each received transaction is rebuilt with the same inputs and outputs and a recomputed, valid id |
| PeerSync.ReceiveChainAction | src/index.ts:61-133 | empty, unparseable or not-newer chains do nothing; a newer tip linked to ours with an array payload is appended (rebuilt, stamped with the local clock), and one without an array payload is dropped; an unlinked lone tip asks peers for their chains; an unlinked longer chain is offered to replaceChain |
| PeerSync.ApplyChainAction | src/index.ts:84-129 | only the chain changes, via addBlock or replaceChain; requesting the full chain broadcasts GET_ENTIRE_CHAIN and changes nothing |
| PeerSync.Offer | src/index.ts:147-151 | a transaction the pool accepts is appended, rebuilt with the same inputs and outputs, and passes validateTransaction; it is accepted exactly when the rebuilt transaction passes validateTransaction and isValidTxForPool |
| PeerSync.ProcessReceivedTxs | src/index.ts:147-155 | the pool only grows, by at most one transaction per received one, and one pool broadcast goes out per acceptance |
| PeerSync.AcceptedTxIsAppendedAndBroadcast | src/index.ts:147-155 | a received transaction the pool accepts is appended rebuilt (recomputed id), the grown pool is broadcast at once, and the remaining transactions are offered to the grown pool |
| PeerSync.ProcessedTxsValid | src/index.ts:147-155 | every transaction the loop adds passes validateTransaction |
| PeerSync.ProcessReceivedTxsAppend | src/index.ts:147-155 | processing a concatenation is processing the parts in turn, so each transaction is tried against the pool its predecessors left |
| PeerSync.RejectedTxIsSkipped | src/index.ts:148-154 | a rejected transaction leaves no trace: the rest are processed as if it had not arrived |
| PeerSync.Dispatch | src/index.ts:27-166 | unparseable and unknown messages change nothing and send nothing; GET_LASTEST_BLOCK replies with [tip]; GET_ENTIRE_CHAIN with the whole chain; the pool query with the pool; a non-array pool payload is dropped |
| PeerSync.DispatchChainEffect | src/index.ts:61-133 | whatever arrives, the chain stays rooted at genesis, never loses cumulative difficulty, and changes only by appending a block linked to the tip or by adopting a valid, at least as heavy chain |
| PeerSync.DispatchSeparatesChainAndPool | src/index.ts:46-164 | the UTXO set never changes; only pool messages change the pool and only chain messages change the chain |
| PeerSync.FastPathSkipsProofOfWork | src/index.ts:84-116 | a linked tip is appended without recomputing its hash: a tip whose stored hash is no SHA-256 output is accepted, and the resulting chain fails full validation |
| Seqs.Filter | src/blockchain/transaction-pool.ts:46 | the reference filter: keeps only elements satisfying the predicate, drawn from the input, and keeps every element that satisfies it |
| Seqs.FilterIsSubsequence | src/blockchain/transaction-pool.ts:46 | filtering keeps relative order |
| Seqs.FilterIdempotent | src/blockchain/transaction-pool.ts:46 | filtering twice with the same predicate equals filtering once |
| Seqs.WithoutRejected | src/blockchain/transaction-pool.ts:46 | lodash `without` of the rejected elements equals filtering with the complementary predicate |
| Seqs.FilterAppend | src/wallet/index.ts:43-44 | filtering distributes over concatenation |

## Left out

- I/O is not modelled:
  - the Express routes, the WebSocket server and client, and the `sockets` registry;
  - `send`, `broadcast` and the close handlers.
  
  The handler's replies and broadcasts are returned as values instead.
- Key-file I/O in the wallet and the `keygen` wrapper are left out. Public-key derivation, signing and
  verification are uninterpreted parameters, and so is SHA-256.
- JSON parsing is not modelled. Messages arrive decoded: an unparseable payload is `None`, and a
  message type the switch does not know is `UnknownType`. The `MESSAGE_TYPE` enum in
  `common-constants.ts` declares only the three chain message codes; the two pool message types the
  switch uses are not declared there.
- PeerSync.Dispatch: as written, `MESSAGE_TYPE.GET_TRANSACTION_POOL` and
  `MESSAGE_TYPE.RECEIVE_TRANSACTION_POOL` are `undefined`, so the cases at `src/index.ts:135` and
  `src/index.ts:140` compare the numeric `msgType` against `undefined` and never match. Every pool
  message therefore falls through to `default` (`src/index.ts:160`). A pool message a node builds
  itself (`src/index.ts:136`, `:151`, `:245`) carries an undefined `type`. The receiver's
  `data.type.toString()` throws, the catch leaves `-1`, and that message too ends in `default`. The
  model gives the two pool types their own codes, as the switch evidently intends. The claims of
  `PeerSync.Dispatch`, `PeerSync.Offer`, `PeerSync.ProcessReceivedTxs` and
  `PeerSync.DispatchSeparatesChainAndPool` about the pool branches describe that intended switch. In
  the source as written, pool gossip has no effect.
- JavaScript class versus plain-object effects are not modelled.
  - Blocks parsed from JSON are plain objects, so lodash `isEqual` against the genesis `Block` instance
    and the missing `calcHash` method would make `isValidChain` reject or throw on any received chain.
  - The model treats received blocks as `Block` values.
- `Date` is not modelled. Timestamps are integer milliseconds, and `new Date()` is the caller-supplied
  `now`.
- The structural validators (`isValidTxInStructure`, `isValidTxOutStructure`,
  `isValidTransactionStructure`) are left out, because Dafny's types make them vacuous.
  `isValidAddress` is not part of this model.
- `isValidTxForPool` is not part of this model and is a parameter.
- The `Blockchain` methods that `src/index.ts` calls but `blockchain.ts` does not define
  (`getTxPoolData`, `addToTxPool`) are modelled as follows:
  - reading the pool;
  - `addToTransactionPool` against the node's UTXO set, with a rejection thrown and caught.
- `src/index.ts:90-114` passes a seventh argument (the received timestamp) to a `Block` constructor
  that takes six. The model follows `blockchain.ts`, so the rebuilt tip is stamped with the local
  clock.
- Chain.Block: difficulty is a `nat`, so a negative difficulty cannot be represented. The source
  can hold one: the fast path in `src/index.ts:84-116` appends a peer's tip with whatever difficulty
  it claims, `-1` included. Such a block would then:
  - add `Math.pow(2, -1) = 0.5` to `getCumulativeDifficulty`;
  - make `getDifficulty` return `-1` when it is the latest block and not at an adjustment point;
  - make the next `mineBlock` throw on `"0".repeat(-1)`.
- PeerSync.ReceiveChainAction: a received tip's difficulty is a `nat`. A tip claiming a negative
  difficulty is outside the model, for the reason given under Chain.Block.
- Chain.HashOf: hashes a `TxArray` payload through the `txsJson` parameter. In the source,
  `calcHash` calls `this.transaction.stringify()`, which a plain array does not have, so hashing a
  block whose payload is an array of transactions throws a `TypeError`. As a result:
  - `MineBlock` with a `TxArray` payload succeeds in the model, where the source throws;
  - `ValidLink` and `IsValidChain` can accept a chain holding a `TxArray` block, where the source's
    `isValidChain` throws;
  - in `PeerSync.FastPathSkipsProofOfWork` the model's full validation rejects the chain, where the
    source's would throw.

  The `Abort` outcome of `PeerSync.ReceiveChainAction` is the one place where this throw is modelled.
- Numbers are unbounded integers. JavaScript floating-point amounts and timestamps are not modelled.
- `_.cloneDeep` is the identity, because values have no sharing.
- Chain.CalcHash: the source's search loops without bound. The model tries at most `fuel` nonces,
  and `None` means no nonce in that range met the difficulty.
- Chain.NewBlock: inherits the `fuel` bound of `CalcHash` when no hash is given; `None` means no
  nonce from the given one up to `fuel` further worked.
- Chain.MineBlock: inherits the same bound; `SearchExhausted` means no nonce in `0 .. fuel - 1`
  worked at the current, non-negative difficulty.
- Chain.IsValidChain: recomputes the hash at the stored nonce only.
  - The source's `calcHash` keeps searching past a stored nonce that misses the difficulty (and
    rewrites it).
  - So the source also accepts a block whose stored hash is the one found at a later nonce; the model
    rejects it.
  - The two agree whenever the stored nonce meets the difficulty.
- Chain.IsValidChain: follows `blockchain.ts:124-128`, which only requires non-null timestamps that
  do not go backwards after the first non-genesis block. There is no bound on the gap between
  consecutive timestamps, and the model adds none.
- Chain.ReplaceChain: `blockchain.ts:146` rejects only when the current chain is strictly heavier,
  so a chain of equal weight replaces the current one.
- Chain.GetDifficulty: `blockchain.ts:163-167` does not clamp the retarget, so a difficulty of 0
  followed by slow blocks gives `-1`. The model does not clamp it either. `"0".repeat(-1)` would throw, so
  `MineBlock` fails with `NegativeDifficulty`.
- Transactions.ValidateBlockTransactions: requires a non-empty list. On an empty list the source
  reads `aTransactions[0]` as `undefined` and throws a `TypeError` at
  `src/blockchain/transaction.ts:228-229`, so it returns no verdict to model.
- PeerSync.ReceiveChainAction: `Abort` models the `TypeError` thrown when a linked tip arrives with
  an empty hash; the constructor then tries to hash an array payload. The node state is left
  unchanged.
- Wallet.FindTxOutsForAmount: the leftover is below the last included amount only when `amount > 0`.
  For `amount <= 0` and a non-empty list of spendable UTXOs whose first amount is at least `amount`,
  exactly that first UTXO is selected, and the leftover is its amount minus `amount`.
- Wallet.CreateTransaction: success when selection succeeds, and full validity, are stated under
  unique outpoints in the UTXO set.
  - With repeated outpoints, `find` resolves every input to the first match.
  - Signing can then fail, and sums need not balance.

=== FILE: blockchain.dfy ===
/** The chain engine of `blockchain.ts`: blocks, the proof-of-work search,
    the genesis-rooted chain, its validation, the cumulative-difficulty
    fork-choice rule and difficulty retargeting. A chain is a value; the
    operations that change it in place in the source return the new chain
    together with the accept/reject flag the source returns. */
module Chain {
  import opened Results
  import opened Externals
  import opened Transactions

  /** `BLOCK_GENERATION_INTERVAL`, in minutes. */
  const BLOCK_GENERATION_INTERVAL: int := 1
  /** `DIFFICULTY_ADJUSTMENT_INTERVAL`, in blocks. */
  const DIFFICULTY_ADJUSTMENT_INTERVAL: int := 3

  /** `minuteToMilisec`. */
  function MinuteToMillisec(m: int): int
  {
    m * 60 * 1000
  }

  /** The primitives, plus the JSON text of an array of ledger transactions
      (the payload of blocks relayed between peers). */
  datatype ChainEnv = ChainEnv(prims: Primitives, txsJson: seq<Tx> -> string)

  /** What a block carries in its `transaction` field: the opaque
      `Transaction` wrapper of `blockchain.ts`, represented by the JSON text
      of its data, or an array of ledger transactions. */
  datatype Payload = Wrapped(json: string) | TxArray(txs: seq<Tx>)

  /** `new Transaction(null)`. */
  const NULL_PAYLOAD: Payload := Wrapped("null")

  /** A block; `timestamp` is a millisecond time, `None` for `null`. */
  datatype Block = Block(index: nat, hash: string, prevHash: string, payload: Payload,
                         timestamp: Option<int>, difficulty: nat, nonce: nat)

  function PayloadText(env: ChainEnv, payload: Payload): string
  {
    match payload
    case Wrapped(json) => json
    case TxArray(txs) => env.txsJson(txs)
  }

  /** The SHA-256 of index, previous hash, ISO timestamp (empty when null),
      payload, difficulty and nonce. The stored `hash` is not an input. */
  function HashOf(env: ChainEnv, b: Block): string
  {
    env.prims.sha256(NumToString(b.index) + b.prevHash
                     + (if b.timestamp.None? then "" else env.prims.isoTime(b.timestamp.value))
                     + PayloadText(env, b.payload)
                     + NumToString(b.difficulty) + NumToString(b.nonce))
  }

  /** `h.startsWith("0".repeat(d))`. */
  predicate StartsWithZeros(h: string, d: nat)
  {
    d <= |h| && forall i :: 0 <= i < d ==> h[i] == '0'
  }

  /** The block's own fields hash to something meeting its difficulty. */
  predicate MeetsTarget(env: ChainEnv, b: Block)
  {
    StartsWithZeros(HashOf(env, b), b.difficulty)
  }

  /** Nonce `n` solves the proof-of-work puzzle for `b`'s other fields. */
  predicate NonceWorks(env: ChainEnv, b: Block, n: nat)
  {
    MeetsTarget(env, b.(nonce := n))
  }

  lemma NonceWorksIgnoresNonce(env: ChainEnv, b: Block, m: nat, n: nat)
    ensures NonceWorks(env, b.(nonce := m), n) == NonceWorks(env, b, n)
  {
    assert b.(nonce := m).(nonce := n) == b.(nonce := n);
  }

  /** `Block.calcHash`: try nonces upwards from the current one until the
      hash meets the difficulty. The source loops without bound; here at
      most `fuel` nonces are tried and `None` reports that none of them
      worked. */
  function CalcHash(env: ChainEnv, b: Block, fuel: nat): (r: Option<Block>)
    decreases fuel
    ensures r.Some? ==> r.value == b.(nonce := r.value.nonce, hash := r.value.hash)
    ensures r.Some? ==> b.nonce <= r.value.nonce < b.nonce + fuel
    ensures r.Some? ==> r.value.hash == HashOf(env, r.value) && MeetsTarget(env, r.value)
    ensures r.Some? ==> forall n :: b.nonce <= n < r.value.nonce ==> !NonceWorks(env, b, n)
    ensures r.None? <==> forall n :: b.nonce <= n < b.nonce + fuel ==> !NonceWorks(env, b, n)
  {
    if fuel == 0 then None
    else if MeetsTarget(env, b) then
      assert b.(nonce := b.nonce) == b;
      assert NonceWorks(env, b, b.nonce);
      Some(b.(hash := HashOf(env, b)))
    else
      var next := b.(nonce := b.nonce + 1);
      assert b.(nonce := b.nonce) == b;
      var r := CalcHash(env, next, fuel - 1);
      forall n: nat | b.nonce < n
        ensures NonceWorks(env, next, n) == NonceWorks(env, b, n)
      {
        NonceWorksIgnoresNonce(env, b, b.nonce + 1, n);
      }
      if r.Some? then
        assert r.value == b.(nonce := r.value.nonce, hash := r.value.hash);
        r
      else r
  }

  /** The block the constructor assembles before any hash is set: stamped
      with `now` unless it is index 0 carrying the null payload. */
  function UnhashedBlock(index: nat, payload: Payload, difficulty: nat, nonce: nat, prevHash: string, now: int): Block
  {
    var timestamp := if index == 0 && payload == NULL_PAYLOAD then None else Some(now);
    Block(index, "", prevHash, payload, timestamp, difficulty, nonce)
  }

  /** The `Block` constructor: a timestamp unless this is index 0 carrying
      the null payload, and a hash searched for unless one is given. The
      clock reading is the parameter `now`. */
  function NewBlock(env: ChainEnv, index: nat, payload: Payload, difficulty: nat, nonce: nat,
                    hash: string, prevHash: string, now: int, fuel: nat): (r: Option<Block>)
    ensures hash != "" ==> r.Some? && r.value.hash == hash && r.value.nonce == nonce
    ensures r.Some? ==> && r.value.index == index && r.value.payload == payload
                        && r.value.difficulty == difficulty && r.value.prevHash == prevHash
                        && r.value.nonce >= nonce
    ensures r.Some? ==> (r.value.timestamp.None? <==> index == 0 && payload == NULL_PAYLOAD)
    ensures r.Some? && r.value.timestamp.Some? ==> r.value.timestamp.value == now
    ensures r.Some? && hash == "" ==> r.value.hash == HashOf(env, r.value) && MeetsTarget(env, r.value)
    ensures hash == "" ==>
              (r.None? <==> forall n :: nonce <= n < nonce + fuel ==>
                              !NonceWorks(env, UnhashedBlock(index, payload, difficulty, nonce, prevHash, now), n))
  {
    var b := UnhashedBlock(index, payload, difficulty, nonce, prevHash, now);
    if hash != "" then Some(b.(hash := hash)) else CalcHash(env, b, fuel)
  }

  /** `Block.genesisBlock`. */
  function Genesis(env: ChainEnv): Block
  {
    var b := Block(0, "", "", NULL_PAYLOAD, None, 0, 0);
    b.(hash := HashOf(env, b))
  }

  /** The genesis block is what the constructor builds for index 0, the
      null payload and difficulty 0, whatever the clock says: its hash is
      found at the first nonce. */
  lemma GenesisIsConstructed(env: ChainEnv, now: int, fuel: nat)
    requires fuel >= 1
    ensures NewBlock(env, 0, NULL_PAYLOAD, 0, 0, "", "", now, fuel) == Some(Genesis(env))
    ensures Genesis(env).timestamp.None? && MeetsTarget(env, Genesis(env))
  {
    var b := Block(0, "", "", NULL_PAYLOAD, None, 0, 0);
    assert MeetsTarget(env, b);
  }

  /** One step of the loop in `isValidChain`: linkage, the stored hash
      recomputed (at the stored nonce) and meeting the difficulty, and,
      after the first non-genesis block, present and non-decreasing
      timestamps. */
  predicate ValidLink(env: ChainEnv, prev: Block, cur: Block)
  {
    && cur.prevHash == prev.hash
    && cur.hash == HashOf(env, cur) && MeetsTarget(env, cur)
    && (prev.index != 0 ==>
          prev.timestamp.Some? && cur.timestamp.Some?
          && cur.timestamp.value - prev.timestamp.value >= 0)
  }

  /** The loop of `isValidChain` from position `i` on. */
  function LinksFrom(env: ChainEnv, c: seq<Block>, i: nat): (r: bool)
    requires 1 <= i <= |c|
    decreases |c| - i
    ensures r <==> forall k :: i <= k < |c| ==> ValidLink(env, c[k - 1], c[k])
  {
    if i == |c| then true else ValidLink(env, c[i - 1], c[i]) && LinksFrom(env, c, i + 1)
  }

  /** `Blockchain.isValidChain`. */
  function IsValidChain(env: ChainEnv, c: seq<Block>): (r: bool)
    ensures r <==> && |c| > 0 && c[0] == Genesis(env)
                   && forall k :: 1 <= k < |c| ==> ValidLink(env, c[k - 1], c[k])
  {
    |c| != 0 && c[0] == Genesis(env) && LinksFrom(env, c, 1)
  }

  lemma GenesisChainValid(env: ChainEnv)
    ensures IsValidChain(env, [Genesis(env)])
  {
  }

  /** Validity is closed under taking non-empty prefixes. */
  lemma ValidChainPrefix(env: ChainEnv, c: seq<Block>, n: nat)
    requires IsValidChain(env, c) && 1 <= n <= |c|
    ensures IsValidChain(env, c[..n])
  {
  }

  /** Validity is kept by appending a block that links to the tip. */
  lemma ValidChainExtend(env: ChainEnv, c: seq<Block>, b: Block)
    requires IsValidChain(env, c) && ValidLink(env, c[|c| - 1], b)
    ensures IsValidChain(env, c + [b])
  {
    var d := c + [b];
    forall k | 1 <= k < |d|
      ensures ValidLink(env, d[k - 1], d[k])
    {
      if k < |c| {
        assert d[k - 1] == c[k - 1] && d[k] == c[k];
      }
    }
  }

  /** `Blockchain` constructor: the supplied chain when it is valid,
      otherwise the chain holding only the genesis block. */
  function NewBlockchain(env: ChainEnv, supplied: Option<seq<Block>>): (r: seq<Block>)
    ensures |r| > 0 && r[0] == Genesis(env) && IsValidChain(env, r)
    ensures supplied.Some? && IsValidChain(env, supplied.value) ==> r == supplied.value
    ensures !(supplied.Some? && IsValidChain(env, supplied.value)) ==> r == [Genesis(env)]
  {
    if supplied.Some? && IsValidChain(env, supplied.value) then supplied.value
    else
      GenesisChainValid(env);
      [Genesis(env)]
  }

  /** 2 to the power `d`. */
  function Pow2(d: nat): (r: nat)
    ensures r >= 1
  {
    if d == 0 then 1 else 2 * Pow2(d - 1)
  }

  /** Powers of two multiply by adding exponents, so one more unit of
      difficulty doubles a block's weight. */
  lemma {:induction false} Pow2Add(a: nat, b: nat)
    ensures Pow2(a + b) == Pow2(a) * Pow2(b)
    decreases b
  {
    if b > 0 {
      Pow2Add(a, b - 1);
      calc {
        Pow2(a + b);
        2 * Pow2(a + b - 1);
        2 * (Pow2(a) * Pow2(b - 1));
        Pow2(a) * (2 * Pow2(b - 1));
        Pow2(a) * Pow2(b);
      }
    }
  }

  /** `getCumulativeDifficulty`: the sum of 2^difficulty over the chain. */
  function CumulativeDifficulty(c: seq<Block>): nat
  {
    if |c| == 0 then 0 else CumulativeDifficulty(c[..|c| - 1]) + Pow2(c[|c| - 1].difficulty)
  }

  lemma CumulativeOfGenesis(env: ChainEnv)
    ensures CumulativeDifficulty([Genesis(env)]) == 1
  {
    assert [Genesis(env)][..0] == [];
  }

  /** Appending a block adds exactly its weight, so the total strictly grows. */
  lemma CumulativeAppend(c: seq<Block>, b: Block)
    ensures CumulativeDifficulty(c + [b]) == CumulativeDifficulty(c) + Pow2(b.difficulty)
    ensures CumulativeDifficulty(c + [b]) > CumulativeDifficulty(c)
  {
    assert (c + [b])[..|c|] == c;
  }

  /** A prefix never outweighs the whole chain. */
  lemma {:induction false} CumulativePrefix(c: seq<Block>, n: nat)
    requires n <= |c|
    ensures CumulativeDifficulty(c[..n]) <= CumulativeDifficulty(c)
    decreases |c| - n
  {
    if n < |c| {
      CumulativePrefix(c, n + 1);
      assert c[..n + 1][..n] == c[..n];
      assert c[..|c|] == c;
    } else {
      assert c[..n] == c;
    }
  }

  /** The new chain and whether the operation accepted its argument. */
  datatype Update = Update(accepted: bool, chain: seq<Block>)

  /** `addBlock`: append the block when it links to the tip by `prevHash`;
      nothing else about it is checked. */
  function AddBlock(chain: seq<Block>, block: Option<Block>): (r: Update)
    requires |chain| > 0
    ensures r.accepted <==> block.Some? && block.value.prevHash == chain[|chain| - 1].hash
    ensures r.accepted ==> r.chain == chain + [block.value] && |r.chain| == |chain| + 1
    ensures !r.accepted ==> r.chain == chain
  {
    if block.None? then Update(false, chain)
    else if chain[|chain| - 1].hash != block.value.prevHash then Update(false, chain)
    else Update(true, chain + [block.value])
  }

  /** `replaceChain`: adopt a valid candidate unless the local chain is
      strictly heavier, so a candidate of equal weight replaces it. */
  function ReplaceChain(env: ChainEnv, local: seq<Block>, candidate: seq<Block>): (r: Update)
    ensures r.accepted <==> IsValidChain(env, candidate)
                            && CumulativeDifficulty(local) <= CumulativeDifficulty(candidate)
    ensures r.accepted ==> r.chain == candidate
    ensures !r.accepted ==> r.chain == local
  {
    if !IsValidChain(env, candidate) then Update(false, local)
    else if CumulativeDifficulty(local) > CumulativeDifficulty(candidate) then Update(false, local)
    else Update(true, candidate)
  }

  /** The fork-choice rule never loses work and never leaves a valid chain
      for an invalid one. */
  lemma ReplaceChainKeepsInvariants(env: ChainEnv, local: seq<Block>, candidate: seq<Block>)
    ensures CumulativeDifficulty(ReplaceChain(env, local, candidate).chain) >= CumulativeDifficulty(local)
    ensures IsValidChain(env, local) ==> IsValidChain(env, ReplaceChain(env, local, candidate).chain)
  {
  }

  /** A valid candidate of exactly the local weight is adopted. */
  lemma EqualWeightReplaces(env: ChainEnv, local: seq<Block>, candidate: seq<Block>)
    requires IsValidChain(env, candidate)
    requires CumulativeDifficulty(local) == CumulativeDifficulty(candidate)
    ensures ReplaceChain(env, local, candidate) == Update(true, candidate)
  {
  }

  /** Why `getDifficulty` could not compute a difficulty: the source reads a
      timestamp of `null` or of a block before the start of the chain, and
      throws a `TypeError`. */
  datatype DifficultyError = MissingTimestamp | NoAdjustmentBlock

  /** The tip index is a nonzero multiple of the adjustment interval. */
  predicate AtAdjustment(chain: seq<Block>)
    requires |chain| > 0
  {
    var tip := chain[|chain| - 1];
    tip.index % DIFFICULTY_ADJUSTMENT_INTERVAL == 0 && tip.index != 0
  }

  /** Milliseconds between the block one interval back and the tip. */
  function ElapsedSinceAdjustment(chain: seq<Block>): int
    requires |chain| >= DIFFICULTY_ADJUSTMENT_INTERVAL
    requires chain[|chain| - 1].timestamp.Some?
    requires chain[|chain| - DIFFICULTY_ADJUSTMENT_INTERVAL].timestamp.Some?
  {
    chain[|chain| - 1].timestamp.value - chain[|chain| - DIFFICULTY_ADJUSTMENT_INTERVAL].timestamp.value
  }

  /** `getDifficulty`: the tip's difficulty, except at an adjustment point,
      where it is the difficulty one interval back moved by one step: down
      when the interval took more than twice the expected time, up when it
      took less than half. The result is not clamped at 0. */
  function GetDifficulty(chain: seq<Block>): (r: Result<int, DifficultyError>)
    requires |chain| > 0
    ensures !AtAdjustment(chain) ==> r == Success(chain[|chain| - 1].difficulty)
    ensures AtAdjustment(chain) && r.Success? ==>
              && |chain| >= DIFFICULTY_ADJUSTMENT_INTERVAL
              && chain[|chain| - 1].timestamp.Some?
              && chain[|chain| - DIFFICULTY_ADJUSTMENT_INTERVAL].timestamp.Some?
              && var base := chain[|chain| - DIFFICULTY_ADJUSTMENT_INTERVAL].difficulty;
                 var expected := MinuteToMillisec(BLOCK_GENERATION_INTERVAL) * DIFFICULTY_ADJUSTMENT_INTERVAL;
                 var actual := ElapsedSinceAdjustment(chain);
                 && base - 1 <= r.value <= base + 1
                 && (r.value < base <==> actual > 2 * expected)
                 && (r.value > base <==> 2 * actual < expected)
    ensures AtAdjustment(chain) && r.Failure? <==>
              AtAdjustment(chain)
              && (chain[|chain| - 1].timestamp.None? || |chain| < DIFFICULTY_ADJUSTMENT_INTERVAL
                  || chain[|chain| - DIFFICULTY_ADJUSTMENT_INTERVAL].timestamp.None?)
  {
    var tip := chain[|chain| - 1];
    if AtAdjustment(chain) then
      if tip.timestamp.None? then Failure(MissingTimestamp)
      else if |chain| < DIFFICULTY_ADJUSTMENT_INTERVAL then Failure(NoAdjustmentBlock)
      else
        var adjusted := chain[|chain| - DIFFICULTY_ADJUSTMENT_INTERVAL];
        if adjusted.timestamp.None? then Failure(MissingTimestamp)
        else
          var expected := MinuteToMillisec(BLOCK_GENERATION_INTERVAL) * DIFFICULTY_ADJUSTMENT_INTERVAL;
          var actual := tip.timestamp.value - adjusted.timestamp.value;
          var step := if actual < expected / 2 then 1 else if actual > expected * 2 then -1 else 0;
          Success(adjusted.difficulty + step)
    else Success(tip.difficulty)
  }

  /** Why `mineBlock` produced no block. A negative difficulty makes the
      source's `"0".repeat` throw a `RangeError`. */
  datatype MineError = DifficultyUnavailable | NegativeDifficulty | SearchExhausted

  /** `mineBlock`: a block at the next index, linked to the tip, at the
      current difficulty, with its proof of work. */
  function MineBlock(env: ChainEnv, chain: seq<Block>, payload: Payload, now: int, fuel: nat): (r: Result<Block, MineError>)
    requires |chain| > 0
    ensures GetDifficulty(chain).Failure? ==> r == Failure(DifficultyUnavailable)
    ensures GetDifficulty(chain).Success? && GetDifficulty(chain).value < 0 ==> r == Failure(NegativeDifficulty)
    ensures r.Success? ==>
              && r.value.index == |chain|
              && r.value.prevHash == chain[|chain| - 1].hash
              && r.value.payload == payload
              && r.value.timestamp == Some(now)
              && GetDifficulty(chain) == Success(r.value.difficulty as int)
              && r.value.hash == HashOf(env, r.value) && MeetsTarget(env, r.value)
    ensures r == Failure(SearchExhausted) <==>
              && GetDifficulty(chain).Success? && GetDifficulty(chain).value >= 0
              && var unhashed := Block(|chain|, "", chain[|chain| - 1].hash, payload, Some(now),
                                       GetDifficulty(chain).value as nat, 0);
                 forall n :: 0 <= n < fuel ==> !NonceWorks(env, unhashed, n)
  {
    match GetDifficulty(chain)
    case Failure(_) => Failure(DifficultyUnavailable)
    case Success(d) =>
      if d < 0 then Failure(NegativeDifficulty)
      else
        match NewBlock(env, |chain|, payload, d, 0, "", chain[|chain| - 1].hash, now, fuel)
        case None => Failure(SearchExhausted)
        case Some(b) => Success(b)
  }

  /** At difficulty 0 every hash meets the target, so the first nonce tried
      already succeeds. */
  lemma MiningAtDifficultyZeroSucceeds(env: ChainEnv, chain: seq<Block>, payload: Payload, now: int, fuel: nat)
    requires |chain| > 0 && GetDifficulty(chain) == Success(0) && fuel >= 1
    ensures MineBlock(env, chain, payload, now, fuel).Success?
  {
  }

  /** A freshly mined block is always accepted by `addBlock` on the chain it
      was mined from. */
  lemma MineThenAddSucceeds(env: ChainEnv, chain: seq<Block>, payload: Payload, now: int, fuel: nat)
    requires |chain| > 0 && MineBlock(env, chain, payload, now, fuel).Success?
    ensures AddBlock(chain, Some(MineBlock(env, chain, payload, now, fuel).value))
            == Update(true, chain + [MineBlock(env, chain, payload, now, fuel).value])
  {
  }

  /** Raising one block's difficulty by `k` multiplies that block's weight
      by 2^k and moves no other term, so the chain gains
      2^d * (2^k - 1); one extra unit of difficulty adds exactly 2^d. */
  lemma {:induction false} CumulativeRaise(c: seq<Block>, i: nat, k: nat)
    requires i < |c|
    ensures CumulativeDifficulty(c[i := c[i].(difficulty := c[i].difficulty + k)])
            == CumulativeDifficulty(c) + Pow2(c[i].difficulty) * (Pow2(k) - 1)
    decreases |c|
  {
    var raised := c[i := c[i].(difficulty := c[i].difficulty + k)];
    var last := |c| - 1;
    if i == last {
      assert raised[..last] == c[..last];
      Pow2Add(c[i].difficulty, k);
    } else {
      CumulativeRaise(c[..last], i, k);
      assert raised[..last] == c[..last][i := c[i].(difficulty := c[i].difficulty + k)];
      assert raised[last] == c[last];
    }
  }

  /** Mining onto a valid chain, with a clock that has not gone backwards
      since the tip, yields a valid and strictly heavier chain. */
  lemma MinedBlockExtendsValidChain(env: ChainEnv, chain: seq<Block>, payload: Payload, now: int, fuel: nat)
    requires IsValidChain(env, chain) && MineBlock(env, chain, payload, now, fuel).Success?
    requires chain[|chain| - 1].index != 0 ==>
               chain[|chain| - 1].timestamp.Some? && chain[|chain| - 1].timestamp.value <= now
    ensures IsValidChain(env, chain + [MineBlock(env, chain, payload, now, fuel).value])
    ensures CumulativeDifficulty(chain + [MineBlock(env, chain, payload, now, fuel).value])
            > CumulativeDifficulty(chain)
  {
    var b := MineBlock(env, chain, payload, now, fuel).value;
    assert ValidLink(env, chain[|chain| - 1], b);
    ValidChainExtend(env, chain, b);
    CumulativeAppend(chain, b);
  }

  /** Retargeting is not clamped: an interval mined too slowly at
      difficulty 0 yields difficulty -1, and then no block can be mined. */
  lemma RetargetCanGoNegative(env: ChainEnv, fuel: nat)
    ensures var slow := [Block(0, "g", "", NULL_PAYLOAD, None, 0, 0),
                         Block(1, "a", "g", NULL_PAYLOAD, Some(0), 0, 0),
                         Block(2, "b", "a", NULL_PAYLOAD, Some(200000), 0, 0),
                         Block(3, "c", "b", NULL_PAYLOAD, Some(400000), 0, 0)];
            && GetDifficulty(slow) == Success(-1)
            && MineBlock(env, slow, NULL_PAYLOAD, 500000, fuel) == Failure(NegativeDifficulty)
  {
  }
}

=== FILE: externals.dfy ===
/** The collaborators the ledger calls but does not implement: SHA-256, the
    secp256k1 key operations of the `elliptic` library and `Date`
    formatting. They are uninterpreted: every operation of the model takes
    them as a `Primitives` value and assumes nothing about them unless a
    lemma states the assumption in its `requires`. */
module Externals {

  datatype Primitives = Primitives(
    /** `SHA256(s).toString()`: hex digest of a string. */
    sha256: string -> string,
    /** `getPublicKeyFromPrivateKey`: hex public key of a hex private key. */
    publicKeyOf: string -> string,
    /** `toHexString(ec.keyFromPrivate(k).sign(m).toDER())`, as (key, message). */
    sign: (string, string) -> string,
    /** `ec.keyFromPublic(pub).verify(m, sig)`, as (publicKey, message, signature). */
    verify: (string, string, string) -> bool,
    /** `Date.toISOString()` of a millisecond timestamp. */
    isoTime: int -> string)

  /** Signatures made with a private key verify under the matching public
      key. The only cryptographic fact any lemma of the model relies on. */
  ghost predicate SignaturesSound(p: Primitives)
  {
    forall key, msg :: p.verify(p.publicKeyOf(key), msg, p.sign(key, msg))
  }

  function DigitChar(d: nat): char
    requires d < 10
  {
    "0123456789"[d]
  }

  function NatToString(n: nat): string
    decreases n
  {
    if n < 10 then [DigitChar(n)] else NatToString(n / 10) + [DigitChar(n % 10)]
  }

  /** The decimal text JavaScript produces when an integral number is
      concatenated to a string. */
  function NumToString(n: int): string
  {
    if n < 0 then "-" + NatToString(-n) else NatToString(n)
  }
}

=== FILE: peer_sync.dfy ===
/** The peer-message handler of `src/index.ts` as a pure decision: given the
    node's state and one decoded message, the next state, the reply sent
    back to the sender and the messages broadcast to every peer. */
module PeerSync {
  import opened Results
  import opened Externals
  import opened Transactions
  import TxPool
  import opened Chain

  /** An incoming message after `parseJSON` and type decoding. The payload
      of a chain or pool message is `None` when it is not valid JSON. */
  datatype Message =
    | Unparseable
    | GetLatestBlock
    | GetEntireChain
    | ReceiveChain(blocks: Option<seq<Block>>)
    | GetTransactionPool
    | ReceiveTransactionPool(txs: Option<seq<Tx>>)
    | UnknownType

  /** An outgoing message: `RECEIVE_CHAIN` with blocks, `GET_ENTIRE_CHAIN`,
      or `RECEIVE_TRANSACTION_POOL` with the pool. */
  datatype OutMsg = ChainMsg(blocks: seq<Block>) | QueryEntireChain | PoolMsg(txs: seq<Tx>)

  /** What the `RECEIVE_CHAIN` branch decides to do. `Abort` is the case
      where rebuilding the received tip throws: with an empty hash the
      constructor hashes an array payload, which has no `stringify`. */
  datatype ChainAction =
    | NoAction
    | AppendTip(block: Block)
    | RequestFullChain
    | Replace(candidate: seq<Block>)
    | Abort

  /** The node: its chain, its transaction pool and the UTXO set the pool
      validates against. */
  datatype NodeState = NodeState(chain: seq<Block>, pool: seq<Tx>, utxos: seq<UnspentTxOut>)

  /** The handler's effect. */
  datatype Step = Step(state: NodeState, reply: Option<OutMsg>, broadcasts: seq<OutMsg>)

  /** The chain primitives and the pool admission check the handler uses. */
  datatype PeerEnv = PeerEnv(chainEnv: ChainEnv, isValidTxForPool: (seq<Tx>, Tx) -> bool)

  /** Each received transaction rebuilt with `new Transaction(ins, outs)`,
      which recomputes its id from the inputs and outputs. */
  function RebuildTxs(p: Primitives, txs: seq<Tx>): (r: seq<Tx>)
    ensures |r| == |txs|
    ensures forall i :: 0 <= i < |txs| ==> r[i].ins == txs[i].ins && r[i].outs == txs[i].outs
    ensures forall i :: 0 <= i < |txs| ==> HasValidId(p, r[i])
  {
    seq(|txs|, i requires 0 <= i < |txs| => NewTx(p, txs[i].ins, txs[i].outs))
  }

  /** The received tip is newer than the local tip. */
  predicate Newer(local: seq<Block>, c: seq<Block>)
    requires |local| > 0 && |c| > 0
  {
    c[|c| - 1].index > local[|local| - 1].index
  }

  /** The received tip links to the local tip. */
  predicate Linked(local: seq<Block>, c: seq<Block>)
    requires |local| > 0 && |c| > 0
  {
    c[|c| - 1].prevHash == local[|local| - 1].hash
  }

  /** The `RECEIVE_CHAIN` branch: ignore stale or empty chains; append a
      newer tip that links to ours (rebuilt, stamped with the local clock
      `now`); ask for the whole chain when a lone tip does not link; and
      otherwise try to replace the chain. */
  function ReceiveChainAction(env: ChainEnv, local: seq<Block>, received: Option<seq<Block>>, now: int): (a: ChainAction)
    requires |local| > 0
    ensures received.None? || |received.value| == 0 ==> a == NoAction
    ensures received.Some? && |received.value| > 0 && !Newer(local, received.value) ==> a == NoAction
    ensures received.Some? && |received.value| > 0 && Newer(local, received.value) && Linked(local, received.value) ==>
              var tip := received.value[|received.value| - 1];
              && (!tip.payload.TxArray? ==> a == NoAction)
              && (tip.payload.TxArray? && tip.hash == "" ==> a == Abort)
              && (tip.payload.TxArray? && tip.hash != "" ==>
                    a == AppendTip(Block(tip.index, tip.hash, tip.prevHash,
                                         TxArray(RebuildTxs(env.prims, tip.payload.txs)),
                                         Some(now), tip.difficulty, tip.nonce)))
    ensures received.Some? && |received.value| > 0 && Newer(local, received.value) && !Linked(local, received.value) ==>
              (|received.value| == 1 ==> a == RequestFullChain)
              && (|received.value| > 1 ==> a == Replace(received.value))
  {
    if received.None? || |received.value| == 0 then NoAction
    else
      var c := received.value;
      var tip := c[|c| - 1];
      var localTip := local[|local| - 1];
      if tip.index <= localTip.index then NoAction
      else if tip.prevHash == localTip.hash then
        if !tip.payload.TxArray? then NoAction
        else
          match NewBlock(env, tip.index, TxArray(RebuildTxs(env.prims, tip.payload.txs)),
                         tip.difficulty, tip.nonce, tip.hash, tip.prevHash, now, 0)
          case None => Abort
          case Some(b) => AppendTip(b)
      else if |c| == 1 then RequestFullChain
      else Replace(c)
  }

  /** Carry out a chain action on the node. */
  function ApplyChainAction(env: ChainEnv, state: NodeState, a: ChainAction): (r: Step)
    requires |state.chain| > 0
    ensures r.reply.None? && r.state.pool == state.pool && r.state.utxos == state.utxos
    ensures a == RequestFullChain <==> r.broadcasts == [QueryEntireChain]
    ensures a != RequestFullChain ==> r.broadcasts == []
    ensures a.AppendTip? ==> r.state.chain == AddBlock(state.chain, Some(a.block)).chain
    ensures a.Replace? ==> r.state.chain == ReplaceChain(env, state.chain, a.candidate).chain
    ensures a == NoAction || a == Abort || a == RequestFullChain ==> r.state == state
  {
    match a
    case NoAction => Step(state, None, [])
    case Abort => Step(state, None, [])
    case RequestFullChain => Step(state, None, [QueryEntireChain])
    case AppendTip(b) => Step(state.(chain := AddBlock(state.chain, Some(b)).chain), None, [])
    case Replace(c) => Step(state.(chain := ReplaceChain(env, state.chain, c).chain), None, [])
  }

  /** The pool after a run of received transactions, and what was broadcast. */
  datatype PoolRun = PoolRun(pool: seq<Tx>, broadcasts: seq<OutMsg>)

  /** One received transaction, rebuilt and offered to the pool. */
  function Offer(env: PeerEnv, pool: seq<Tx>, utxos: seq<UnspentTxOut>, tx: Tx): (r: Result<seq<Tx>, TxPool.PoolError>)
    ensures r.Success? ==> && |r.value| == |pool| + 1 && r.value[..|pool|] == pool
                           && ValidateTransaction(env.chainEnv.prims, r.value[|pool|], utxos)
                           && r.value[|pool|].ins == tx.ins && r.value[|pool|].outs == tx.outs
    ensures var rebuilt := NewTx(env.chainEnv.prims, tx.ins, tx.outs);
            r.Success? <==> ValidateTransaction(env.chainEnv.prims, rebuilt, utxos)
                            && env.isValidTxForPool(pool, rebuilt)
  {
    TxPool.AddToTransactionPool(env.chainEnv.prims, pool, NewTx(env.chainEnv.prims, tx.ins, tx.outs),
                                utxos, env.isValidTxForPool)
  }

  /** Every transaction of `pool` from position `from` on passes
      `validateTransaction`. */
  predicate AcceptedValid(p: Primitives, pool: seq<Tx>, from: nat, utxos: seq<UnspentTxOut>)
  {
    forall i :: from <= i < |pool| ==> ValidateTransaction(p, pool[i], utxos)
  }

  /** The `RECEIVE_TRANSACTION_POOL` loop: each transaction is rebuilt and
      offered to the pool on its own; a rejection is caught and the loop
      goes on; each acceptance broadcasts the whole pool. */
  function ProcessReceivedTxs(env: PeerEnv, pool: seq<Tx>, utxos: seq<UnspentTxOut>, txs: seq<Tx>): (r: PoolRun)
    decreases |txs|
    ensures |pool| <= |r.pool| <= |pool| + |txs| && r.pool[..|pool|] == pool
    ensures |r.broadcasts| == |r.pool| - |pool|
  {
    if |txs| == 0 then PoolRun(pool, [])
    else
      match Offer(env, pool, utxos, txs[0])
      case Failure(_) => ProcessReceivedTxs(env, pool, utxos, txs[1..])
      case Success(grown) =>
        var rest := ProcessReceivedTxs(env, grown, utxos, txs[1..]);
        assert rest.pool[..|pool|] == rest.pool[..|grown|][..|pool|];
        PoolRun(rest.pool, [PoolMsg(grown)] + rest.broadcasts)
  }

  /** An accepted transaction joins the pool, the grown pool is broadcast
      at once, and the rest of the batch is offered to the grown pool. */
  lemma AcceptedTxIsAppendedAndBroadcast(env: PeerEnv, pool: seq<Tx>, utxos: seq<UnspentTxOut>,
                                         tx: Tx, rest: seq<Tx>, grown: seq<Tx>)
    requires Offer(env, pool, utxos, tx) == Success(grown)
    ensures |grown| == |pool| + 1 && grown[..|pool|] == pool
    ensures grown[|pool|] == NewTx(env.chainEnv.prims, tx.ins, tx.outs)
    ensures var after := ProcessReceivedTxs(env, grown, utxos, rest);
            ProcessReceivedTxs(env, pool, utxos, [tx] + rest)
            == PoolRun(after.pool, [PoolMsg(grown)] + after.broadcasts)
  {
  }

  /** Every transaction the loop adds passes `validateTransaction`. */
  lemma {:induction false} ProcessedTxsValid(env: PeerEnv, pool: seq<Tx>, utxos: seq<UnspentTxOut>, txs: seq<Tx>)
    decreases |txs|
    ensures AcceptedValid(env.chainEnv.prims, ProcessReceivedTxs(env, pool, utxos, txs).pool, |pool|, utxos)
  {
    if |txs| > 0 {
      match Offer(env, pool, utxos, txs[0])
      case Failure(_) =>
        ProcessedTxsValid(env, pool, utxos, txs[1..]);
      case Success(grown) =>
        ProcessedTxsValid(env, grown, utxos, txs[1..]);
        var rest := ProcessReceivedTxs(env, grown, utxos, txs[1..]).pool;
        forall i | |pool| <= i < |rest|
          ensures ValidateTransaction(env.chainEnv.prims, rest[i], utxos)
        {
          if i == |pool| {
            assert rest[i] == rest[..|grown|][i] == grown[i];
          }
        }
    }
  }

  /** Processing a concatenation is processing each part in turn: every
      transaction is tried against the pool left by those before it,
      whatever happened to them. */
  lemma {:induction false} ProcessReceivedTxsAppend(env: PeerEnv, pool: seq<Tx>, utxos: seq<UnspentTxOut>,
                                                    a: seq<Tx>, b: seq<Tx>)
    decreases |a|
    ensures var ra := ProcessReceivedTxs(env, pool, utxos, a);
            var rb := ProcessReceivedTxs(env, ra.pool, utxos, b);
            ProcessReceivedTxs(env, pool, utxos, a + b) == PoolRun(rb.pool, ra.broadcasts + rb.broadcasts)
  {
    if |a| == 0 {
      assert a + b == b;
    } else {
      assert (a + b)[0] == a[0];
      assert (a + b)[1..] == a[1..] + b;
      match Offer(env, pool, utxos, a[0])
      case Failure(_) =>
        ProcessReceivedTxsAppend(env, pool, utxos, a[1..], b);
      case Success(grown) =>
        ProcessReceivedTxsAppend(env, grown, utxos, a[1..], b);
        var ra := ProcessReceivedTxs(env, grown, utxos, a[1..]);
        var rb := ProcessReceivedTxs(env, ra.pool, utxos, b);
        assert [PoolMsg(grown)] + (ra.broadcasts + rb.broadcasts)
               == ([PoolMsg(grown)] + ra.broadcasts) + rb.broadcasts;
    }
  }

  /** A transaction the pool rejects leaves no trace: the rest are processed
      exactly as if it had not been received. */
  lemma RejectedTxIsSkipped(env: PeerEnv, pool: seq<Tx>, utxos: seq<UnspentTxOut>, tx: Tx, rest: seq<Tx>)
    requires Offer(env, pool, utxos, tx).Failure?
    ensures ProcessReceivedTxs(env, pool, utxos, [tx] + rest) == ProcessReceivedTxs(env, pool, utxos, rest)
  {
    assert ([tx] + rest)[0] == tx;
    assert ([tx] + rest)[1..] == rest;
  }

  /** The message switch of `initHandlers`. */
  function Dispatch(env: PeerEnv, state: NodeState, msg: Message, now: int): (r: Step)
    requires |state.chain| > 0
    ensures msg == Unparseable || msg == UnknownType ==> r == Step(state, None, [])
    ensures msg == GetLatestBlock ==> r == Step(state, Some(ChainMsg([state.chain[|state.chain| - 1]])), [])
    ensures msg == GetEntireChain ==> r == Step(state, Some(ChainMsg(state.chain)), [])
    ensures msg == GetTransactionPool ==> r == Step(state, Some(PoolMsg(state.pool)), [])
    ensures msg.ReceiveChain? ==>
              r == ApplyChainAction(env.chainEnv, state, ReceiveChainAction(env.chainEnv, state.chain, msg.blocks, now))
    ensures msg == ReceiveTransactionPool(None) ==> r == Step(state, None, [])
    ensures msg.ReceiveTransactionPool? && msg.txs.Some? ==>
              var run := ProcessReceivedTxs(env, state.pool, state.utxos, msg.txs.value);
              r == Step(state.(pool := run.pool), None, run.broadcasts)
  {
    match msg
    case Unparseable => Step(state, None, [])
    case UnknownType => Step(state, None, [])
    case GetLatestBlock => Step(state, Some(ChainMsg([state.chain[|state.chain| - 1]])), [])
    case GetEntireChain => Step(state, Some(ChainMsg(state.chain)), [])
    case GetTransactionPool => Step(state, Some(PoolMsg(state.pool)), [])
    case ReceiveChain(blocks) =>
      ApplyChainAction(env.chainEnv, state, ReceiveChainAction(env.chainEnv, state.chain, blocks, now))
    case ReceiveTransactionPool(txs) =>
      if txs.None? then Step(state, None, [])
      else
        var run := ProcessReceivedTxs(env, state.pool, state.utxos, txs.value);
        Step(state.(pool := run.pool), None, run.broadcasts)
  }

  /** Whatever arrives, the chain stays rooted at the genesis block, never
      loses cumulative difficulty, and changes only by appending a block
      linked to the old tip or by adopting a valid chain at least as heavy. */
  lemma DispatchChainEffect(env: PeerEnv, state: NodeState, msg: Message, now: int)
    requires |state.chain| > 0 && state.chain[0] == Genesis(env.chainEnv)
    ensures var after := Dispatch(env, state, msg, now).state.chain;
            && |after| > 0 && after[0] == Genesis(env.chainEnv)
            && CumulativeDifficulty(after) >= CumulativeDifficulty(state.chain)
            && (|| after == state.chain
                || (|after| == |state.chain| + 1 && after[..|state.chain|] == state.chain
                    && after[|state.chain|].prevHash == state.chain[|state.chain| - 1].hash)
                || (IsValidChain(env.chainEnv, after)
                    && CumulativeDifficulty(after) >= CumulativeDifficulty(state.chain)))
  {
    var after := Dispatch(env, state, msg, now).state.chain;
    if msg.ReceiveChain? {
      var a := ReceiveChainAction(env.chainEnv, state.chain, msg.blocks, now);
      if a.AppendTip? {
        var added := AddBlock(state.chain, Some(a.block));
        if added.accepted {
          CumulativeAppend(state.chain, a.block);
          assert after == state.chain + [a.block];
          assert after[..|state.chain|] == state.chain;
        }
      }
    }
  }

  /** The pool and UTXO set are untouched by chain messages, and the chain
      by pool messages: pooled transactions are never mined by the handler. */
  lemma DispatchSeparatesChainAndPool(env: PeerEnv, state: NodeState, msg: Message, now: int)
    requires |state.chain| > 0
    ensures Dispatch(env, state, msg, now).state.utxos == state.utxos
    ensures !msg.ReceiveTransactionPool? ==> Dispatch(env, state, msg, now).state.pool == state.pool
    ensures !msg.ReceiveChain? ==> Dispatch(env, state, msg, now).state.chain == state.chain
  {
  }

  /** The primitives of a toy node whose every hash is "h". */
  function ToyEnv(): PeerEnv
  {
    var prims := Primitives((s: string) => "h", (k: string) => k, (k: string, m: string) => m,
                            (k: string, m: string, s: string) => true, (t: int) => "");
    PeerEnv(ChainEnv(prims, (txs: seq<Tx>) => "[]"), (pool: seq<Tx>, tx: Tx) => true)
  }

  /** The fast path trusts a linked tip without recomputing its hash: a
      valid one-block chain accepts a tip whose stored hash no input hashes
      to, so no proof of work stands behind it, and the resulting chain is
      one that full validation does not accept. */
  lemma FastPathSkipsProofOfWork(now: int)
    ensures var env := ToyEnv();
            var before := NodeState([Genesis(env.chainEnv)], [], []);
            var forged := Block(1, "forged", "h", TxArray([]), None, 0, 0);
            var after := Dispatch(env, before, ReceiveChain(Some([forged])), now).state.chain;
            && IsValidChain(env.chainEnv, before.chain)
            && |after| == 2 && after[1].hash == "forged"
            && (forall text :: env.chainEnv.prims.sha256(text) != after[1].hash)
            && !IsValidChain(env.chainEnv, after)
  {
    var env := ToyEnv();
    var g := Genesis(env.chainEnv);
    assert g.hash == "h";
    var forged := Block(1, "forged", "h", TxArray([]), None, 0, 0);
    var after := Dispatch(env, NodeState([g], [], []), ReceiveChain(Some([forged])), now).state.chain;
    assert !ValidLink(env.chainEnv, after[0], after[1]);
  }
}

=== FILE: results.dfy ===
/** Optional values and error-carrying results, used wherever the ledger
    returns `null` or throws an `Error` for an expected rejection. */
module Results {

  /** A value that may be absent: the source's `T | null`. */
  datatype Option<+T> = None | Some(value: T)

  /** A computed value or the reason it could not be computed. */
  datatype Result<+T, +E> = Success(value: T) | Failure(error: E)
}

=== FILE: seqs.dfy ===
/** Order-preserving filters over sequences and the subsequence relation,
    the pure counterparts of lodash `filter` and `without`. */
module Seqs {

  /** The elements of `xs` satisfying `keep`, in their original order. */
  function Filter<T(==)>(xs: seq<T>, keep: T -> bool): (r: seq<T>)
    ensures |r| <= |xs|
    ensures forall i :: 0 <= i < |r| ==> r[i] in xs && keep(r[i])
    ensures forall i :: 0 <= i < |xs| && keep(xs[i]) ==> xs[i] in r
  {
    if |xs| == 0 then []
    else if keep(xs[0]) then [xs[0]] + Filter(xs[1..], keep)
    else Filter(xs[1..], keep)
  }

  /** `xs` with every element equal to some element of `drop` removed
      (lodash `_.without` on values). */
  function Without<T(==)>(xs: seq<T>, drop: seq<T>): seq<T>
  {
    Filter(xs, x => x !in drop)
  }

  /** `sub` can be obtained from `xs` by deleting elements. */
  predicate IsSubsequence<T(==)>(sub: seq<T>, xs: seq<T>)
    decreases |xs|
  {
    if |sub| == 0 then true
    else if |xs| == 0 then false
    else if sub[0] == xs[0] then IsSubsequence(sub[1..], xs[1..])
    else IsSubsequence(sub, xs[1..])
  }

  lemma {:induction false} FilterIsSubsequence<T>(xs: seq<T>, keep: T -> bool)
    ensures IsSubsequence(Filter(xs, keep), xs)
    decreases |xs|
  {
    if |xs| > 0 {
      FilterIsSubsequence(xs[1..], keep);
      var rest := Filter(xs[1..], keep);
      if keep(xs[0]) {
        assert Filter(xs, keep) == [xs[0]] + rest;
        assert ([xs[0]] + rest)[1..] == rest;
      } else {
        SubsequenceSkip(rest, xs);
      }
    }
  }

  /** Dropping the head of `xs` keeps a subsequence of the tail a subsequence. */
  lemma {:induction false} SubsequenceSkip<T>(sub: seq<T>, xs: seq<T>)
    requires |xs| > 0
    requires IsSubsequence(sub, xs[1..])
    ensures IsSubsequence(sub, xs)
    decreases |xs|, 0
  {
    if |sub| > 0 && sub[0] == xs[0] {
      SubsequenceDropHead(sub, xs[1..]);
    }
  }

  /** A non-empty subsequence of `xs` stays one when its own head is dropped. */
  lemma {:induction false} SubsequenceDropHead<T>(sub: seq<T>, xs: seq<T>)
    requires |sub| > 0
    requires IsSubsequence(sub, xs)
    ensures IsSubsequence(sub[1..], xs)
    decreases |xs|, 1
  {
    if sub[0] == xs[0] {
      SubsequenceSkip(sub[1..], xs);
    } else {
      SubsequenceDropHead(sub, xs[1..]);
      SubsequenceSkip(sub[1..], xs);
    }
  }

  /** Filtering with a predicate that holds everywhere changes nothing. */
  lemma {:induction false} FilterAllKept<T>(xs: seq<T>, keep: T -> bool)
    ensures (forall i :: 0 <= i < |xs| ==> keep(xs[i])) ==> Filter(xs, keep) == xs
    decreases |xs|
  {
    if |xs| > 0 {
      FilterAllKept(xs[1..], keep);
    }
  }

  /** Filtering twice with the same predicate is filtering once. */
  lemma FilterIdempotent<T>(xs: seq<T>, keep: T -> bool)
    ensures Filter(Filter(xs, keep), keep) == Filter(xs, keep)
  {
    var r := Filter(xs, keep);
    FilterAllKept(r, keep);
  }

  /** Removing the elements selected by `reject` is keeping those selected
      by its complement `keep`. */
  lemma {:induction false} WithoutRejected<T>(xs: seq<T>, reject: T -> bool, keep: T -> bool)
    requires forall i :: 0 <= i < |xs| ==> reject(xs[i]) == !keep(xs[i])
    ensures Without(xs, Filter(xs, reject)) == Filter(xs, keep)
  {
    var drop := Filter(xs, reject);
    forall i | 0 <= i < |xs|
      ensures (xs[i] !in drop) == keep(xs[i])
    {
      if xs[i] in drop {
        var m :| 0 <= m < |drop| && drop[m] == xs[i];
      }
    }
    FilterCongruent(xs, x => x !in drop, keep);
  }

  /** Two predicates that agree on every element of `xs` filter it alike. */
  lemma {:induction false} FilterCongruent<T>(xs: seq<T>, f: T -> bool, g: T -> bool)
    requires forall i :: 0 <= i < |xs| ==> f(xs[i]) == g(xs[i])
    ensures Filter(xs, f) == Filter(xs, g)
    decreases |xs|
  {
    if |xs| > 0 {
      FilterCongruent(xs[1..], f, g);
    }
  }

  lemma {:induction false} FilterAppend<T>(a: seq<T>, b: seq<T>, keep: T -> bool)
    ensures Filter(a + b, keep) == Filter(a, keep) + Filter(b, keep)
    decreases |a|
  {
    if |a| == 0 {
      assert a + b == b;
    } else {
      assert (a + b)[0] == a[0];
      assert (a + b)[1..] == a[1..] + b;
      FilterAppend(a[1..], b, keep);
    }
  }
}

=== FILE: transaction.dfy ===
/** The transaction model of `src/blockchain/transaction.ts`: inputs that
    spend earlier outputs, outputs that pay addresses, the hash id, and the
    validity rules for ordinary, coinbase and block-level transaction lists. */
module Transactions {
  import opened Results
  import opened Externals

  /** `Transaction.COINBASE_AMOUNT`: the mining reward. */
  const COINBASE_AMOUNT: int := 50

  /** A reference to an output being spent, with the spender's signature. */
  datatype TxIn = TxIn(outId: string, outIndex: int, signature: string)

  datatype TxOut = TxOut(address: string, amount: int)

  /** An output that exists and has not been spent yet. */
  datatype UnspentTxOut = UnspentTxOut(outId: string, outIndex: int, address: string, amount: int)

  datatype Tx = Tx(id: string, ins: seq<TxIn>, outs: seq<TxOut>)

  datatype SignError = NoSuchInput | ReferenceNotFound | KeyMismatch

  /** `u` is the output identified by (`id`, `index`). */
  predicate IsOutpoint(u: UnspentTxOut, id: string, index: int)
  {
    u.outId == id && u.outIndex == index
  }

  /** `txIn` spends `u`. */
  predicate Spends(txIn: TxIn, u: UnspentTxOut)
  {
    IsOutpoint(u, txIn.outId, txIn.outIndex)
  }

  /** Two inputs spend the same output. */
  predicate SameOutpoint(a: TxIn, b: TxIn)
  {
    a.outId == b.outId && a.outIndex == b.outIndex
  }

  /** utils `hasTxIn`: the output `txIn` spends is among `utxos`. */
  predicate HasTxIn(txIn: TxIn, utxos: seq<UnspentTxOut>)
  {
    exists k :: 0 <= k < |utxos| && Spends(txIn, utxos[k])
  }

  /** No two entries of a UTXO list describe the same output. */
  predicate UniqueOutpoints(utxos: seq<UnspentTxOut>)
  {
    forall i, j :: 0 <= i < j < |utxos| ==> !IsOutpoint(utxos[j], utxos[i].outId, utxos[i].outIndex)
  }

  /** `findUnspentTxOut`: the first entry of `utxos` identified by
      (`id`, `index`), or none. */
  function FindUnspentTxOut(id: string, index: int, utxos: seq<UnspentTxOut>): (r: Option<UnspentTxOut>)
    ensures r.None? <==> forall k :: 0 <= k < |utxos| ==> !IsOutpoint(utxos[k], id, index)
    ensures r.Some? ==> exists k :: 0 <= k < |utxos| && utxos[k] == r.value && IsOutpoint(utxos[k], id, index)
                                    && forall j :: 0 <= j < k ==> !IsOutpoint(utxos[j], id, index)
  {
    if |utxos| == 0 then None
    else if IsOutpoint(utxos[0], id, index) then Some(utxos[0])
    else
      var r := FindUnspentTxOut(id, index, utxos[1..]);
      assert r.Some? ==> exists k :: 1 <= k < |utxos| && utxos[k] == r.value && IsOutpoint(utxos[k], id, index)
                                      && forall j :: 0 <= j < k ==> !IsOutpoint(utxos[j], id, index) by {
        if r.Some? {
          var k :| 0 <= k < |utxos| - 1 && utxos[1..][k] == r.value && IsOutpoint(utxos[1..][k], id, index)
                   && forall j :: 0 <= j < k ==> !IsOutpoint(utxos[1..][j], id, index);
          assert forall j :: 0 <= j < k + 1 ==> !IsOutpoint(utxos[j], id, index) by {
            forall j | 0 <= j < k + 1 ensures !IsOutpoint(utxos[j], id, index) {
              if j > 0 { assert utxos[j] == utxos[1..][j - 1]; }
            }
          }
        }
      }
      r
  }

  /** With unique outpoints, looking up an entry's own outpoint finds that entry. */
  lemma FindUniqueOutpoint(utxos: seq<UnspentTxOut>, k: int)
    requires UniqueOutpoints(utxos)
    requires 0 <= k < |utxos|
    ensures FindUnspentTxOut(utxos[k].outId, utxos[k].outIndex, utxos) == Some(utxos[k])
  {
  }

  /** `TransactionIn.validateTxIn`: the referenced output exists and the
      input's signature over the transaction id verifies under its address. */
  function ValidateTxIn(p: Primitives, txIn: TxIn, tx: Tx, utxos: seq<UnspentTxOut>): (r: bool)
    ensures r <==> HasTxIn(txIn, utxos)
                   && p.verify(FindUnspentTxOut(txIn.outId, txIn.outIndex, utxos).value.address, tx.id, txIn.signature)
  {
    match FindUnspentTxOut(txIn.outId, txIn.outIndex, utxos)
    case None => false
    case Some(u) => p.verify(u.address, tx.id, txIn.signature)
  }

  /** `TransactionIn.getTxInAmount`: the amount of the referenced output, 0 when it is absent. */
  function TxInAmount(txIn: TxIn, utxos: seq<UnspentTxOut>): (r: int)
    ensures !HasTxIn(txIn, utxos) ==> r == 0
    ensures UniqueOutpoints(utxos) ==>
              forall k :: 0 <= k < |utxos| && Spends(txIn, utxos[k]) ==> r == utxos[k].amount
  {
    match FindUnspentTxOut(txIn.outId, txIn.outIndex, utxos)
    case None => 0
    case Some(u) => u.amount
  }

  /** Total amount spent by `ins`, resolved against `utxos`. */
  function SumInAmounts(ins: seq<TxIn>, utxos: seq<UnspentTxOut>): int
  {
    if |ins| == 0 then 0 else TxInAmount(ins[0], utxos) + SumInAmounts(ins[1..], utxos)
  }

  function SumOutAmounts(outs: seq<TxOut>): int
  {
    if |outs| == 0 then 0 else outs[0].amount + SumOutAmounts(outs[1..])
  }

  /** The input part of the id pre-image: each outpoint id followed by its index. */
  function InsText(ins: seq<TxIn>): string
  {
    if |ins| == 0 then "" else ins[0].outId + NumToString(ins[0].outIndex) + InsText(ins[1..])
  }

  /** The output part of the id pre-image: each address followed by its amount. */
  function OutsText(outs: seq<TxOut>): string
  {
    if |outs| == 0 then "" else outs[0].address + NumToString(outs[0].amount) + OutsText(outs[1..])
  }

  /** `Transaction.getId`. */
  function ComputeId(p: Primitives, ins: seq<TxIn>, outs: seq<TxOut>): string
  {
    p.sha256(InsText(ins) + OutsText(outs))
  }

  /** The stored id is the one `getId` recomputes. */
  predicate HasValidId(p: Primitives, tx: Tx)
  {
    ComputeId(p, tx.ins, tx.outs) == tx.id
  }

  /** Two input lists spend the same outputs in the same order (signatures may differ). */
  predicate SameRefs(a: seq<TxIn>, b: seq<TxIn>)
  {
    |a| == |b| && forall i :: 0 <= i < |a| ==> SameOutpoint(a[i], b[i])
  }

  lemma {:induction false} InsTextIgnoresSignatures(a: seq<TxIn>, b: seq<TxIn>)
    requires SameRefs(a, b)
    ensures InsText(a) == InsText(b)
    decreases |a|
  {
    if |a| > 0 {
      assert SameOutpoint(a[0], b[0]);
      InsTextIgnoresSignatures(a[1..], b[1..]);
    }
  }

  /** The id depends on the inputs' outpoints only, never on their signatures. */
  lemma IdIgnoresSignatures(p: Primitives, a: seq<TxIn>, b: seq<TxIn>, outs: seq<TxOut>)
    requires SameRefs(a, b)
    ensures ComputeId(p, a, outs) == ComputeId(p, b, outs)
  {
    InsTextIgnoresSignatures(a, b);
  }

  /** The `Transaction` constructor: the id is computed from the contents. */
  function NewTx(p: Primitives, ins: seq<TxIn>, outs: seq<TxOut>): (r: Tx)
    ensures r.ins == ins && r.outs == outs
    ensures HasValidId(p, r)
  {
    Tx(ComputeId(p, ins, outs), ins, outs)
  }

  /** Replacing the inputs by re-signed copies keeps a valid id valid. */
  lemma ResignedTxKeepsId(p: Primitives, tx: Tx, signed: seq<TxIn>)
    requires HasValidId(p, tx)
    requires SameRefs(tx.ins, signed)
    ensures HasValidId(p, tx.(ins := signed))
  {
    IdIgnoresSignatures(p, tx.ins, signed, tx.outs);
  }

  /** `Transaction.validateTransaction`. */
  function ValidateTransaction(p: Primitives, tx: Tx, utxos: seq<UnspentTxOut>): (r: bool)
    ensures r ==> HasValidId(p, tx)
    ensures r ==> forall i :: 0 <= i < |tx.ins| ==> HasTxIn(tx.ins[i], utxos)
    ensures r ==> forall i :: 0 <= i < |tx.ins| ==>
                    HasTxIn(tx.ins[i], utxos) &&
                    p.verify(FindUnspentTxOut(tx.ins[i].outId, tx.ins[i].outIndex, utxos).value.address,
                             tx.id, tx.ins[i].signature)
    ensures r ==> SumOutAmounts(tx.outs) == SumInAmounts(tx.ins, utxos)
    ensures HasValidId(p, tx)
            && (forall i :: 0 <= i < |tx.ins| ==>
                  HasTxIn(tx.ins[i], utxos)
                  && p.verify(FindUnspentTxOut(tx.ins[i].outId, tx.ins[i].outIndex, utxos).value.address,
                              tx.id, tx.ins[i].signature))
            && SumOutAmounts(tx.outs) == SumInAmounts(tx.ins, utxos)
            ==> r
  {
    && ComputeId(p, tx.ins, tx.outs) == tx.id
    && (forall i :: 0 <= i < |tx.ins| ==> ValidateTxIn(p, tx.ins[i], tx, utxos))
    && SumOutAmounts(tx.outs) == SumInAmounts(tx.ins, utxos)
  }

  /** `Transaction.validateCoinbaseTx`. */
  function ValidateCoinbaseTx(p: Primitives, tx: Tx, blockIndex: int): (r: bool)
    ensures r <==> && HasValidId(p, tx)
                   && |tx.ins| == 1 && tx.ins[0].outIndex == blockIndex
                   && |tx.outs| == 1 && tx.outs[0].amount == COINBASE_AMOUNT
  {
    if ComputeId(p, tx.ins, tx.outs) != tx.id then false
    else if |tx.ins| != 1 then false
    else if tx.ins[0].outIndex != blockIndex then false
    else if |tx.outs| != 1 then false
    else if tx.outs[0].amount != COINBASE_AMOUNT then false
    else true
  }

  /** `Transaction.signTransactionIn`: the signature of input `i`, or why it
      cannot be produced (the source throws). */
  function SignTxIn(p: Primitives, tx: Tx, i: int, key: string, utxos: seq<UnspentTxOut>): (r: Result<string, SignError>)
    ensures r.Success? <==> && 0 <= i < |tx.ins| && HasTxIn(tx.ins[i], utxos)
                            && p.publicKeyOf(key)
                               == FindUnspentTxOut(tx.ins[i].outId, tx.ins[i].outIndex, utxos).value.address
    ensures 0 <= i < |tx.ins| && !HasTxIn(tx.ins[i], utxos) ==> r == Failure(ReferenceNotFound)
    ensures 0 <= i < |tx.ins| && HasTxIn(tx.ins[i], utxos)
            && p.publicKeyOf(key) != FindUnspentTxOut(tx.ins[i].outId, tx.ins[i].outIndex, utxos).value.address
            ==> r == Failure(KeyMismatch)
    ensures !(0 <= i < |tx.ins|) ==> r == Failure(NoSuchInput)
    ensures r.Success? ==> r.value == p.sign(key, tx.id)
  {
    if !(0 <= i < |tx.ins|) then Failure(NoSuchInput)
    else
      match FindUnspentTxOut(tx.ins[i].outId, tx.ins[i].outIndex, utxos)
      case None => Failure(ReferenceNotFound)
      case Some(u) =>
        if p.publicKeyOf(key) != u.address then Failure(KeyMismatch)
        else Success(p.sign(key, tx.id))
  }

  /** A signature `SignTxIn` produces makes that input pass `validateTxIn`. */
  lemma SignedInputValidates(p: Primitives, tx: Tx, i: int, key: string, utxos: seq<UnspentTxOut>)
    requires SignaturesSound(p)
    requires SignTxIn(p, tx, i, key, utxos).Success?
    ensures 0 <= i < |tx.ins|
    ensures ValidateTxIn(p, tx.ins[i].(signature := SignTxIn(p, tx, i, key, utxos).value), tx, utxos)
  {
  }

  /** `Transaction.getCoinbaseTransaction`. */
  function GetCoinbaseTransaction(p: Primitives, address: string, blockIndex: int): (r: Tx)
    ensures ValidateCoinbaseTx(p, r, blockIndex)
    ensures r.outs == [TxOut(address, COINBASE_AMOUNT)]
  {
    NewTx(p, [TxIn("", blockIndex, "")], [TxOut(address, COINBASE_AMOUNT)])
  }

  /** The inputs of `txs`, transaction by transaction, in order (lodash
      `map(tx => tx.transactionIns).flatten()`). */
  function FlattenIns(txs: seq<Tx>): seq<TxIn>
  {
    if |txs| == 0 then [] else txs[0].ins + FlattenIns(txs[1..])
  }

  /** Every flattened input is an input of some transaction of the list. */
  lemma {:induction false} FlattenInsFrom(txs: seq<Tx>, m: int)
    requires 0 <= m < |FlattenIns(txs)|
    ensures exists k, j :: 0 <= k < |txs| && 0 <= j < |txs[k].ins| && FlattenIns(txs)[m] == txs[k].ins[j]
    decreases |txs|
  {
    if m < |txs[0].ins| {
      assert FlattenIns(txs)[m] == txs[0].ins[m];
    } else {
      FlattenInsFrom(txs[1..], m - |txs[0].ins|);
      var k, j :| 0 <= k < |txs| - 1 && 0 <= j < |txs[1..][k].ins|
                  && FlattenIns(txs[1..])[m - |txs[0].ins|] == txs[1..][k].ins[j];
      assert FlattenIns(txs)[m] == txs[k + 1].ins[j];
    }
  }

  lemma {:induction false} FlattenInsAppend(a: seq<Tx>, b: seq<Tx>)
    ensures FlattenIns(a + b) == FlattenIns(a) + FlattenIns(b)
    decreases |a|
  {
    if |a| == 0 {
      assert a + b == b;
    } else {
      assert (a + b)[0] == a[0];
      assert (a + b)[1..] == a[1..] + b;
      FlattenInsAppend(a[1..], b);
      assert FlattenIns(a + b) == a[0].ins + (FlattenIns(a[1..]) + FlattenIns(b));
    }
  }

  /** The total number of inputs of `txs`, counted from the back. */
  function InsCount(txs: seq<Tx>): nat
  {
    if |txs| == 0 then 0 else InsCount(txs[..|txs| - 1]) + |txs[|txs| - 1].ins|
  }

  /** Flattening loses and invents no input: its length is the input count. */
  lemma {:induction false} FlattenInsLength(txs: seq<Tx>)
    ensures |FlattenIns(txs)| == InsCount(txs)
    decreases |txs|
  {
    if |txs| > 0 {
      var init := txs[..|txs| - 1];
      FlattenInsLength(init);
      assert txs == init + [txs[|txs| - 1]];
      FlattenInsAppend(init, [txs[|txs| - 1]]);
      assert FlattenIns([txs[|txs| - 1]]) == txs[|txs| - 1].ins + FlattenIns([]);
    }
  }

  /** Number of inputs of the transactions before position `k`. */
  function InsBefore(txs: seq<Tx>, k: int): nat
    requires 0 <= k <= |txs|
  {
    |FlattenIns(txs[..k])|
  }

  /** Splitting the list at `k` splits the flattened inputs there, with
      transaction `k`'s inputs first in the second half. */
  lemma FlattenInsSplit(txs: seq<Tx>, k: int)
    requires 0 <= k < |txs|
    ensures FlattenIns(txs) == FlattenIns(txs[..k]) + (txs[k].ins + FlattenIns(txs[k + 1..]))
    ensures FlattenIns(txs[..k + 1]) == FlattenIns(txs[..k]) + txs[k].ins
  {
    var pre, suf := txs[..k], txs[k..];
    assert txs == pre + suf;
    FlattenInsAppend(pre, suf);
    assert suf[0] == txs[k] && suf[1..] == txs[k + 1..];
    assert FlattenIns(suf) == txs[k].ins + FlattenIns(txs[k + 1..]);
    assert txs[..k + 1] == pre + [txs[k]];
    FlattenInsAppend(pre, [txs[k]]);
    assert FlattenIns([txs[k]]) == txs[k].ins + FlattenIns([]);
  }

  /** Input `j` of transaction `k` sits at position `InsBefore(txs, k) + j`
      of the flattened list: the concatenation keeps transaction order and
      input order. */
  lemma FlattenInsAt(txs: seq<Tx>, k: int, j: int)
    requires 0 <= k < |txs| && 0 <= j < |txs[k].ins|
    ensures InsBefore(txs, k) + j < |FlattenIns(txs)|
    ensures FlattenIns(txs)[InsBefore(txs, k) + j] == txs[k].ins[j]
    ensures InsBefore(txs, k + 1) == InsBefore(txs, k) + |txs[k].ins|
  {
    FlattenInsSplit(txs, k);
  }

  /** Position `InsBefore(txs, k) + j` of `flat` holds input `j` of transaction `k`. */
  predicate InputAt(flat: seq<TxIn>, txs: seq<Tx>, k: int, j: int)
    requires 0 <= k < |txs| && 0 <= j < |txs[k].ins|
  {
    InsBefore(txs, k) + j < |flat| && flat[InsBefore(txs, k) + j] == txs[k].ins[j]
  }

  /** Position `m` of `flat` holds an input of some transaction of `txs`. */
  predicate FromSomeTx(flat: seq<TxIn>, txs: seq<Tx>, m: int)
    requires 0 <= m < |flat|
  {
    exists k, j :: 0 <= k < |txs| && 0 <= j < |txs[k].ins| && flat[m] == txs[k].ins[j]
  }

  /** `FlattenInsAt` and `FlattenInsFrom` for every position at once. */
  lemma FlattenInsOrder(txs: seq<Tx>)
    ensures forall k, j :: 0 <= k < |txs| && 0 <= j < |txs[k].ins| ==> InputAt(FlattenIns(txs), txs, k, j)
    ensures forall m :: 0 <= m < |FlattenIns(txs)| ==> FromSomeTx(FlattenIns(txs), txs, m)
  {
    forall k, j | 0 <= k < |txs| && 0 <= j < |txs[k].ins|
      ensures InputAt(FlattenIns(txs), txs, k, j)
    {
      FlattenInsAt(txs, k, j);
    }
    forall m | 0 <= m < |FlattenIns(txs)|
      ensures FromSomeTx(FlattenIns(txs), txs, m)
    {
      FlattenInsFrom(txs, m);
    }
  }

  /** `InsBefore` never decreases along the list. */
  lemma {:induction false} InsBeforeMonotone(txs: seq<Tx>, k1: int, k2: int)
    requires 0 <= k1 <= k2 <= |txs|
    ensures InsBefore(txs, k1) <= InsBefore(txs, k2)
    decreases k2 - k1
  {
    if k1 < k2 {
      FlattenInsSplit(txs, k1);
      InsBeforeMonotone(txs, k1 + 1, k2);
    }
  }

  /** Every output is spent at most once in `ins`. */
  predicate NoRepeatedOutpoint(ins: seq<TxIn>)
  {
    forall i, j :: 0 <= i < j < |ins| ==> !SameOutpoint(ins[i], ins[j])
  }

  /** utils `hasDuplicates` on inputs: two of them spend the same output. */
  function HasDuplicates(ins: seq<TxIn>): (r: bool)
    ensures r <==> !NoRepeatedOutpoint(ins)
  {
    if |ins| == 0 then false
    else
      var rest := HasDuplicates(ins[1..]);
      assert rest <==> exists i, j :: 1 <= i < j < |ins| && SameOutpoint(ins[i], ins[j]) by {
        if rest {
          var i, j :| 0 <= i < j < |ins| - 1 && SameOutpoint(ins[1..][i], ins[1..][j]);
          assert SameOutpoint(ins[i + 1], ins[j + 1]);
        }
        if exists i, j :: 1 <= i < j < |ins| && SameOutpoint(ins[i], ins[j]) {
          var i, j :| 1 <= i < j < |ins| && SameOutpoint(ins[i], ins[j]);
          assert SameOutpoint(ins[1..][i - 1], ins[1..][j - 1]);
        }
      }
      (exists j :: 1 <= j < |ins| && SameOutpoint(ins[0], ins[j])) || rest
  }

  /** `Transaction.validateBlockTransactions`; the source reads the first
      element unguarded, so the list must be non-empty. */
  function ValidateBlockTransactions(p: Primitives, txs: seq<Tx>, utxos: seq<UnspentTxOut>, blockIndex: int): (r: bool)
    requires |txs| > 0
    ensures r <==> && ValidateCoinbaseTx(p, txs[0], blockIndex)
                   && NoRepeatedOutpoint(FlattenIns(txs))
                   && forall k :: 1 <= k < |txs| ==> ValidateTransaction(p, txs[k], utxos)
  {
    if !ValidateCoinbaseTx(p, txs[0], blockIndex) then false
    else if HasDuplicates(FlattenIns(txs)) then false
    else
      var normal := txs[1..];
      assert forall k :: 1 <= k < |txs| ==> txs[k] == normal[k - 1];
      forall k :: 0 <= k < |normal| ==> ValidateTransaction(p, normal[k], utxos)
  }

  /** A block spending the same output twice, in one transaction or in two,
      fails `validateBlockTransactions`. */
  lemma RepeatedInputRejected(p: Primitives, txs: seq<Tx>, utxos: seq<UnspentTxOut>, blockIndex: int,
                              k1: int, j1: int, k2: int, j2: int)
    requires 0 <= k1 < |txs| && 0 <= j1 < |txs[k1].ins|
    requires 0 <= k2 < |txs| && 0 <= j2 < |txs[k2].ins|
    requires k1 < k2 || (k1 == k2 && j1 < j2)
    requires SameOutpoint(txs[k1].ins[j1], txs[k2].ins[j2])
    ensures !ValidateBlockTransactions(p, txs, utxos, blockIndex)
  {
    FlattenInsAt(txs, k1, j1);
    FlattenInsAt(txs, k2, j2);
    if k1 < k2 {
      InsBeforeMonotone(txs, k1 + 1, k2);
    }
    var all := FlattenIns(txs);
    assert SameOutpoint(all[InsBefore(txs, k1) + j1], all[InsBefore(txs, k2) + j2]);
  }

  /** A block holding only the coinbase transaction for its height passes. */
  lemma CoinbaseOnlyBlockValid(p: Primitives, address: string, blockIndex: int, utxos: seq<UnspentTxOut>)
    ensures ValidateBlockTransactions(p, [GetCoinbaseTransaction(p, address, blockIndex)], utxos, blockIndex)
  {
    var cb := GetCoinbaseTransaction(p, address, blockIndex);
    assert FlattenIns([cb]) == cb.ins + FlattenIns([]);
  }
}

=== FILE: transaction_pool.dfy ===
/** The pending-transaction pool of `src/blockchain/transaction-pool.ts`:
    transactions accepted for mining but not yet in a block. The pool is a
    value; each operation returns the new pool or a derived list. */
module TxPool {
  import opened Results
  import opened Externals
  import opened Transactions
  import Seqs

  datatype PoolError = InvalidTransaction | RejectedByPool

  /** `addToTransactionPool`. `isValidTxForPool` (a method of the
      transaction class that is not part of this model) is a parameter. */
  function AddToTransactionPool(p: Primitives, pool: seq<Tx>, tx: Tx, utxos: seq<UnspentTxOut>,
                                isValidTxForPool: (seq<Tx>, Tx) -> bool): (r: Result<seq<Tx>, PoolError>)
    ensures !ValidateTransaction(p, tx, utxos) ==> r == Failure(InvalidTransaction)
    ensures ValidateTransaction(p, tx, utxos) && !isValidTxForPool(pool, tx) ==> r == Failure(RejectedByPool)
    ensures ValidateTransaction(p, tx, utxos) && isValidTxForPool(pool, tx) ==> r == Success(pool + [tx])
    ensures r.Success? ==> && |r.value| == |pool| + 1
                           && r.value[..|pool|] == pool
                           && r.value[|pool|] == tx
    ensures r.Success? ==> forall i :: 0 <= i < |tx.ins| ==> HasTxIn(tx.ins[i], utxos)
  {
    if !ValidateTransaction(p, tx, utxos) then Failure(InvalidTransaction)
    else if !isValidTxForPool(pool, tx) then Failure(RejectedByPool)
    else Success(pool + [tx])
  }

  /** Some input of some pooled transaction spends `u`. */
  predicate SpentInPool(pool: seq<Tx>, u: UnspentTxOut)
  {
    exists k, j :: 0 <= k < |pool| && 0 <= j < |pool[k].ins| && Spends(pool[k].ins[j], u)
  }

  /** `getTxPoolIns`: every pooled input, transaction by transaction. */
  function GetTxPoolIns(pool: seq<Tx>): (r: seq<TxIn>)
    ensures forall k, j :: 0 <= k < |pool| && 0 <= j < |pool[k].ins| ==> InputAt(r, pool, k, j)
    ensures forall m :: 0 <= m < |r| ==> FromSomeTx(r, pool, m)
    ensures |r| == InsCount(pool)
  {
    FlattenInsOrder(pool);
    FlattenInsLength(pool);
    FlattenIns(pool)
  }

  /** Every input of `tx` spends an output listed in `utxos`. */
  predicate AllInsPresent(tx: Tx, utxos: seq<UnspentTxOut>)
  {
    forall i :: 0 <= i < |tx.ins| ==> HasTxIn(tx.ins[i], utxos)
  }

  function StillSpendable(utxos: seq<UnspentTxOut>): Tx -> bool
  {
    tx => AllInsPresent(tx, utxos)
  }

  function Stale(utxos: seq<UnspentTxOut>): Tx -> bool
  {
    tx => !AllInsPresent(tx, utxos)
  }

  /** `updateTransactionPool`: collect the transactions with an input that
      is no longer unspent, then remove them. */
  function UpdateTransactionPool(pool: seq<Tx>, utxos: seq<UnspentTxOut>): (r: seq<Tx>)
    ensures forall k :: 0 <= k < |r| ==> AllInsPresent(r[k], utxos)
    ensures forall k :: 0 <= k < |pool| && AllInsPresent(pool[k], utxos) ==> pool[k] in r
    ensures r == Seqs.Filter(pool, StillSpendable(utxos))
    ensures Seqs.IsSubsequence(r, pool)
    ensures (forall k :: 0 <= k < |pool| ==> AllInsPresent(pool[k], utxos)) ==> r == pool
  {
    var invalid := Seqs.Filter(pool, Stale(utxos));
    Seqs.WithoutRejected(pool, Stale(utxos), StillSpendable(utxos));
    Seqs.FilterIsSubsequence(pool, StillSpendable(utxos));
    Seqs.FilterAllKept(pool, StillSpendable(utxos));
    if |invalid| > 0 then Seqs.Without(pool, invalid) else pool
  }

  /** Pruning the pool twice against the same UTXO set prunes nothing more. */
  lemma UpdateTransactionPoolIdempotent(pool: seq<Tx>, utxos: seq<UnspentTxOut>)
    ensures UpdateTransactionPool(UpdateTransactionPool(pool, utxos), utxos) == UpdateTransactionPool(pool, utxos)
  {
    Seqs.FilterIdempotent(pool, StillSpendable(utxos));
  }

  /** lodash `_.find(txIns, …) !== undefined`: some input of `ins` spends `u`. */
  function SpentByAny(ins: seq<TxIn>): UnspentTxOut -> bool
  {
    u => exists m :: 0 <= m < |ins| && Spends(ins[m], u)
  }

  function NotSpentInPool(pool: seq<Tx>): UnspentTxOut -> bool
  {
    u => !SpentInPool(pool, u)
  }

  /** Looking through the flattened inputs finds exactly the outputs the pool spends. */
  lemma SpentByAnyIsSpentInPool(pool: seq<Tx>, u: UnspentTxOut)
    ensures SpentByAny(FlattenIns(pool))(u) <==> SpentInPool(pool, u)
  {
    var ins := FlattenIns(pool);
    if SpentByAny(ins)(u) {
      var m :| 0 <= m < |ins| && Spends(ins[m], u);
      FlattenInsFrom(pool, m);
      var k, j :| 0 <= k < |pool| && 0 <= j < |pool[k].ins| && ins[m] == pool[k].ins[j];
      assert Spends(pool[k].ins[j], u);
    }
    if SpentInPool(pool, u) {
      var k, j :| 0 <= k < |pool| && 0 <= j < |pool[k].ins| && Spends(pool[k].ins[j], u);
      FlattenInsAt(pool, k, j);
      assert Spends(ins[InsBefore(pool, k) + j], u);
    }
  }

  /** `filterTxPoolTxs`: the unspent outputs no pooled transaction spends yet,
      in their original order. */
  function FilterTxPoolTxs(pool: seq<Tx>, utxos: seq<UnspentTxOut>): (r: seq<UnspentTxOut>)
    ensures Seqs.IsSubsequence(r, utxos)
    ensures forall m :: 0 <= m < |r| ==> r[m] in utxos && !SpentInPool(pool, r[m])
    ensures forall m :: 0 <= m < |utxos| && !SpentInPool(pool, utxos[m]) ==> utxos[m] in r
    ensures |pool| == 0 ==> r == utxos
    ensures r == Seqs.Filter(utxos, NotSpentInPool(pool))
  {
    var txIns := FlattenIns(pool);
    var removable := Seqs.Filter(utxos, SpentByAny(txIns));
    assert forall m :: 0 <= m < |utxos| ==> SpentByAny(txIns)(utxos[m]) == !NotSpentInPool(pool)(utxos[m]) by {
      forall m | 0 <= m < |utxos|
        ensures SpentByAny(txIns)(utxos[m]) == !NotSpentInPool(pool)(utxos[m])
      {
        SpentByAnyIsSpentInPool(pool, utxos[m]);
      }
    }
    Seqs.WithoutRejected(utxos, SpentByAny(txIns), NotSpentInPool(pool));
    Seqs.FilterIsSubsequence(utxos, NotSpentInPool(pool));
    Seqs.FilterAllKept(utxos, NotSpentInPool(pool));
    Seqs.Without(utxos, removable)
  }
}

=== FILE: wallet.dfy ===
/** Coin selection and transaction assembly of `src/wallet/index.ts`: how a
    wallet pays `amount` to a receiver out of its own unspent outputs. */
module Wallet {
  import opened Results
  import opened Externals
  import opened Transactions
  import TxPool
  import Seqs

  datatype WalletError = NotEnoughCoins | SigningFailed(reason: SignError)

  /** The outputs chosen to pay for a transfer and the change left over. */
  datatype Selection = Selection(included: seq<UnspentTxOut>, leftOver: int)

  /** Sum of the amounts of the first `k` outputs of `u`: the running total
      of the selection loop. */
  function PrefixSum(u: seq<UnspentTxOut>, k: int): int
    requires 0 <= k <= |u|
  {
    if k == 0 then 0 else PrefixSum(u, k - 1) + u[k - 1].amount
  }

  function SumAmounts(u: seq<UnspentTxOut>): int
  {
    PrefixSum(u, |u|)
  }

  function OwnedBy(address: string): UnspentTxOut -> bool
  {
    (u: UnspentTxOut) => u.address == address
  }

  /** `getBalance`: the total of the outputs paying `address`. */
  function GetBalance(address: string, utxos: seq<UnspentTxOut>): int
  {
    SumAmounts(Seqs.Filter(utxos, OwnedBy(address)))
  }

  lemma {:induction false} PrefixSumOfPrefix(u: seq<UnspentTxOut>, v: seq<UnspentTxOut>, k: int)
    requires 0 <= k <= |u| && k <= |v|
    requires u[..k] == v[..k]
    ensures PrefixSum(u, k) == PrefixSum(v, k)
    decreases k
  {
    if k > 0 {
      assert u[..k - 1] == u[..k][..k - 1] && v[..k - 1] == v[..k][..k - 1];
      assert u[k - 1] == u[..k][k - 1];
      PrefixSumOfPrefix(u, v, k - 1);
    }
  }

  lemma {:induction false} SumAmountsAppend(a: seq<UnspentTxOut>, b: seq<UnspentTxOut>)
    ensures SumAmounts(a + b) == SumAmounts(a) + SumAmounts(b)
    decreases |b|
  {
    if |b| > 0 {
      var b' := b[..|b| - 1];
      assert (a + b)[..|a + b| - 1] == a + b';
      PrefixSumOfPrefix(a + b, a + b', |a + b'|);
      SumAmountsAppend(a, b');
      PrefixSumOfPrefix(b, b', |b'|);
    } else {
      assert a + b == a;
    }
  }

  lemma {:induction false} SumAmountsCons(u: seq<UnspentTxOut>)
    requires |u| > 0
    ensures SumAmounts(u) == u[0].amount + SumAmounts(u[1..])
  {
    assert u == [u[0]] + u[1..];
    SumAmountsAppend([u[0]], u[1..]);
    assert SumAmounts([u[0]]) == PrefixSum([u[0]], 0) + u[0].amount;
  }

  /** A wallet with no outputs paying it has balance 0. */
  lemma BalanceOfNoneOwned(address: string, utxos: seq<UnspentTxOut>)
    requires forall k :: 0 <= k < |utxos| ==> utxos[k].address != address
    ensures GetBalance(address, utxos) == 0
  {
  }

  /** The balance over two lists of outputs is the sum of the balances. */
  lemma BalanceAppend(address: string, a: seq<UnspentTxOut>, b: seq<UnspentTxOut>)
    ensures GetBalance(address, a + b) == GetBalance(address, a) + GetBalance(address, b)
  {
    Seqs.FilterAppend(a, b, OwnedBy(address));
    SumAmountsAppend(Seqs.Filter(a, OwnedBy(address)), Seqs.Filter(b, OwnedBy(address)));
  }

  /** Some non-empty prefix of `u` is worth at least `amount`. */
  predicate Reachable(amount: int, u: seq<UnspentTxOut>)
  {
    exists k :: 1 <= k <= |u| && PrefixSum(u, k) >= amount
  }

  /** `s` takes the shortest non-empty prefix of `u` worth at least
      `amount` and records the excess. */
  predicate IsFirstFit(amount: int, u: seq<UnspentTxOut>, s: Selection)
  {
    var n := |s.included|;
    && 1 <= n <= |u|
    && s.included == u[..n]
    && PrefixSum(u, n) >= amount
    && (forall k :: 1 <= k < n ==> PrefixSum(u, k) < amount)
    && s.leftOver == PrefixSum(u, n) - amount
  }

  /** The selection loop from position `k` on, with running total `current`. */
  function ScanForAmount(amount: int, u: seq<UnspentTxOut>, k: int, current: int): (r: Result<Selection, WalletError>)
    requires 0 <= k <= |u| && current == PrefixSum(u, k)
    requires forall j :: 1 <= j <= k ==> PrefixSum(u, j) < amount
    ensures r.Success? <==> exists j :: k < j <= |u| && PrefixSum(u, j) >= amount
    ensures r.Success? ==> IsFirstFit(amount, u, r.value)
    ensures r.Failure? ==> r.error == NotEnoughCoins
    decreases |u| - k
  {
    if k == |u| then Failure(NotEnoughCoins)
    else
      var total := current + u[k].amount;
      if total >= amount then
        assert PrefixSum(u, k + 1) == total;
        Success(Selection(u[..k + 1], total - amount))
      else
        ScanForAmount(amount, u, k + 1, total)
  }

  /** `findTxOutsForAmount`: first-fit selection over `u` in order. */
  function FindTxOutsForAmount(amount: int, u: seq<UnspentTxOut>): (r: Result<Selection, WalletError>)
    ensures r.Success? <==> Reachable(amount, u)
    ensures r.Failure? ==> r.error == NotEnoughCoins
    ensures r.Success? ==> IsFirstFit(amount, u, r.value)
    ensures r.Success? ==> SumAmounts(r.value.included) == amount + r.value.leftOver
    ensures r.Success? ==> r.value.leftOver >= 0
    ensures r.Success? && amount > 0 ==>
              r.value.leftOver < r.value.included[|r.value.included| - 1].amount
  {
    var r := ScanForAmount(amount, u, 0, 0);
    if r.Success? then
      var n := |r.value.included|;
      PrefixSumOfPrefix(u, r.value.included, n);
      assert r.value.included[n - 1] == u[n - 1];
      assert n > 1 ==> PrefixSum(u, n - 1) < amount;
      r
    else r
  }

  /** The prefix sums of non-negative amounts never decrease. */
  lemma {:induction false} PrefixSumMonotone(u: seq<UnspentTxOut>, j: int, k: int)
    requires forall i :: 0 <= i < |u| ==> u[i].amount >= 0
    requires 0 <= j <= k <= |u|
    ensures PrefixSum(u, j) <= PrefixSum(u, k)
    decreases k - j
  {
    if j < k {
      PrefixSumMonotone(u, j, k - 1);
    }
  }

  /** With non-negative amounts, selection succeeds exactly when the outputs
      are not empty and their total reaches `amount`. */
  lemma SelectionSucceedsIffTotalSuffices(amount: int, u: seq<UnspentTxOut>)
    requires forall i :: 0 <= i < |u| ==> u[i].amount >= 0
    ensures FindTxOutsForAmount(amount, u).Success? <==> |u| > 0 && SumAmounts(u) >= amount
  {
    if Reachable(amount, u) {
      var k :| 1 <= k <= |u| && PrefixSum(u, k) >= amount;
      PrefixSumMonotone(u, k, |u|);
    }
  }

  /** For a positive amount and non-negative outputs, choosing among the
      outputs that pay `address` fails exactly when its balance is short. */
  lemma NotEnoughCoinsIffBalanceShort(address: string, amount: int, utxos: seq<UnspentTxOut>)
    requires amount > 0
    requires forall i :: 0 <= i < |utxos| ==> utxos[i].amount >= 0
    ensures FindTxOutsForAmount(amount, Seqs.Filter(utxos, OwnedBy(address))).Failure?
            <==> GetBalance(address, utxos) < amount
  {
    var owned := Seqs.Filter(utxos, OwnedBy(address));
    assert forall i :: 0 <= i < |owned| ==> owned[i].amount >= 0 by {
      forall i | 0 <= i < |owned| ensures owned[i].amount >= 0 {
        var m :| 0 <= m < |utxos| && utxos[m] == owned[i];
      }
    }
    SelectionSucceedsIffTotalSuffices(amount, owned);
  }

  /** `createTxOuts`: pay the receiver, and return any change to the sender. */
  function CreateTxOuts(receiver: string, myAddress: string, amount: int, leftOver: int): (r: seq<TxOut>)
    ensures |r| >= 1 && r[0] == TxOut(receiver, amount)
    ensures leftOver == 0 ==> |r| == 1
    ensures leftOver != 0 ==> |r| == 2 && r[1] == TxOut(myAddress, leftOver)
    ensures SumOutAmounts(r) == amount + leftOver
  {
    var pay := TxOut(receiver, amount);
    if leftOver == 0 then [pay]
    else
      var change := [TxOut(myAddress, leftOver)];
      assert SumOutAmounts(change) == leftOver;
      assert ([pay] + change)[1..] == change;
      [pay] + change
  }

  /** Unsigned inputs spending the selected outputs, in order. */
  function UnsignedIns(sel: seq<UnspentTxOut>): (r: seq<TxIn>)
    ensures |r| == |sel|
    ensures forall i :: 0 <= i < |sel| ==> Spends(r[i], sel[i])
  {
    seq(|sel|, i requires 0 <= i < |sel| => TxIn(sel[i].outId, sel[i].outIndex, ""))
  }

  /** The outputs `createTransaction` may spend: the signer's own outputs
      that no pooled transaction spends yet. */
  function Spendable(p: Primitives, key: string, utxos: seq<UnspentTxOut>, pool: seq<Tx>): seq<UnspentTxOut>
  {
    TxPool.FilterTxPoolTxs(pool, Seqs.Filter(utxos, OwnedBy(p.publicKeyOf(key))))
  }

  /** Every spendable output is an output of `utxos` paying the signer that
      the pool does not spend. */
  lemma SpendableOwned(p: Primitives, key: string, utxos: seq<UnspentTxOut>, pool: seq<Tx>, m: int)
    requires 0 <= m < |Spendable(p, key, utxos, pool)|
    ensures Spendable(p, key, utxos, pool)[m] in utxos
    ensures Spendable(p, key, utxos, pool)[m].address == p.publicKeyOf(key)
    ensures !TxPool.SpentInPool(pool, Spendable(p, key, utxos, pool)[m])
  {
    var mine := Seqs.Filter(utxos, OwnedBy(p.publicKeyOf(key)));
    var u := Spendable(p, key, utxos, pool)[m];
    assert u in mine;
    var i :| 0 <= i < |mine| && mine[i] == u;
  }

  /** Inputs spending a list of distinct-outpoint outputs resolve to those
      outputs' amounts. */
  lemma {:induction false} SumInOfSelection(ins: seq<TxIn>, sel: seq<UnspentTxOut>, utxos: seq<UnspentTxOut>)
    requires UniqueOutpoints(utxos)
    requires |ins| == |sel|
    requires forall i :: 0 <= i < |sel| ==> Spends(ins[i], sel[i]) && sel[i] in utxos
    ensures SumInAmounts(ins, utxos) == SumAmounts(sel)
    decreases |ins|
  {
    if |ins| > 0 {
      var k :| 0 <= k < |utxos| && utxos[k] == sel[0];
      assert TxInAmount(ins[0], utxos) == sel[0].amount;
      SumInOfSelection(ins[1..], sel[1..], utxos);
      SumAmountsCons(sel);
    }
  }

  /** Under unique outpoints, signing an input that spends one of the
      signer's own listed outputs cannot fail. */
  lemma OwnInputSigns(p: Primitives, tx: Tx, i: int, key: string, utxos: seq<UnspentTxOut>, u: UnspentTxOut)
    requires UniqueOutpoints(utxos)
    requires 0 <= i < |tx.ins|
    requires u in utxos && Spends(tx.ins[i], u) && u.address == p.publicKeyOf(key)
    ensures SignTxIn(p, tx, i, key, utxos).Success?
  {
    var k :| 0 <= k < |utxos| && utxos[k] == u;
    FindUniqueOutpoint(utxos, k);
  }

  /** The outputs a successful selection picks are the signer's, listed in
      `utxos`, and not spent by the pool. */
  predicate UsableBy(p: Primitives, key: string, utxos: seq<UnspentTxOut>, pool: seq<Tx>, sel: seq<UnspentTxOut>)
  {
    forall i :: 0 <= i < |sel| ==>
      && sel[i] in utxos
      && sel[i].address == p.publicKeyOf(key)
      && !TxPool.SpentInPool(pool, sel[i])
  }

  lemma SelectionUsable(p: Primitives, key: string, utxos: seq<UnspentTxOut>, pool: seq<Tx>, amount: int)
    requires FindTxOutsForAmount(amount, Spendable(p, key, utxos, pool)).Success?
    ensures UsableBy(p, key, utxos, pool, FindTxOutsForAmount(amount, Spendable(p, key, utxos, pool)).value.included)
  {
    var available := Spendable(p, key, utxos, pool);
    var sel := FindTxOutsForAmount(amount, available).value.included;
    forall i | 0 <= i < |sel|
      ensures sel[i] in utxos && sel[i].address == p.publicKeyOf(key) && !TxPool.SpentInPool(pool, sel[i])
    {
      assert sel[i] == available[i];
      SpendableOwned(p, key, utxos, pool, i);
    }
  }

  /** `tx` spends exactly the outputs of `sel`, one input each, in order. */
  predicate SpendsInOrder(tx: Tx, sel: seq<UnspentTxOut>)
  {
    |tx.ins| == |sel| && forall i :: 0 <= i < |sel| ==> Spends(tx.ins[i], sel[i])
  }

  /** The transaction `createTransaction` assembles from a selection, once
      every input carries `key`'s signature of the id, is well formed, and
      balances and validates against unique-outpoint UTXOs. */
  lemma AssembledTxFacts(p: Primitives, key: string, receiver: string, amount: int,
                         utxos: seq<UnspentTxOut>, sel: Selection, tx: Tx, signed: seq<TxIn>)
    requires forall i :: 0 <= i < |sel.included| ==>
               sel.included[i] in utxos && sel.included[i].address == p.publicKeyOf(key)
    requires SumAmounts(sel.included) == amount + sel.leftOver
    requires tx == NewTx(p, UnsignedIns(sel.included), CreateTxOuts(receiver, p.publicKeyOf(key), amount, sel.leftOver))
    requires |signed| == |tx.ins|
    requires SignedPrefix(p, key, tx, signed)
    ensures SpendsInOrder(tx.(ins := signed), sel.included)
    ensures HasValidId(p, tx.(ins := signed))
    ensures UniqueOutpoints(utxos) ==> SumOutAmounts(tx.outs) == SumInAmounts(signed, utxos)
    ensures UniqueOutpoints(utxos) && SignaturesSound(p) ==> ValidateTransaction(p, tx.(ins := signed), utxos)
  {
    var result := tx.(ins := signed);
    assert SameRefs(tx.ins, signed);
    ResignedTxKeepsId(p, tx, signed);
    if UniqueOutpoints(utxos) {
      SumInOfSelection(signed, sel.included, utxos);
      if SignaturesSound(p) {
        forall m | 0 <= m < |signed|
          ensures HasTxIn(signed[m], utxos)
          ensures p.verify(FindUnspentTxOut(signed[m].outId, signed[m].outIndex, utxos).value.address,
                           result.id, signed[m].signature)
        {
          var k :| 0 <= k < |utxos| && utxos[k] == sel.included[m];
          FindUniqueOutpoint(utxos, k);
        }
      }
    }
  }

  /** Every input in `signed` is the matching input of `tx` carrying
      `key`'s signature of the transaction id. */
  predicate SignedPrefix(p: Primitives, key: string, tx: Tx, signed: seq<TxIn>)
  {
    |signed| <= |tx.ins| &&
    forall m :: 0 <= m < |signed| ==> signed[m] == tx.ins[m].(signature := p.sign(key, tx.id))
  }

  lemma SignedAppend(p: Primitives, key: string, tx: Tx, signed: seq<TxIn>, sig: string)
    requires SignedPrefix(p, key, tx, signed) && |signed| < |tx.ins|
    requires sig == p.sign(key, tx.id)
    ensures SignedPrefix(p, key, tx, signed + [tx.ins[|signed|].(signature := sig)])
  {
  }

  /** `createTransaction`: select the signer's spendable outputs first-fit,
      pay `amount` with change, then sign every input. */
  method CreateTransaction(p: Primitives, receiver: string, amount: int, key: string,
                           utxos: seq<UnspentTxOut>, pool: seq<Tx>) returns (r: Result<Tx, WalletError>)
    ensures !FindTxOutsForAmount(amount, Spendable(p, key, utxos, pool)).Success? ==> r == Failure(NotEnoughCoins)
    ensures UniqueOutpoints(utxos) ==>
              (r.Success? <==> FindTxOutsForAmount(amount, Spendable(p, key, utxos, pool)).Success?)
    ensures r.Success? ==>
              var sel := FindTxOutsForAmount(amount, Spendable(p, key, utxos, pool)).value;
              && SpendsInOrder(r.value, sel.included)
              && UsableBy(p, key, utxos, pool, sel.included)
              && r.value.outs == CreateTxOuts(receiver, p.publicKeyOf(key), amount, sel.leftOver)
    ensures r.Success? ==> HasValidId(p, r.value)
    ensures r.Success? ==> forall i :: 0 <= i < |r.value.ins| ==> r.value.ins[i].signature == p.sign(key, r.value.id)
    ensures r.Success? && UniqueOutpoints(utxos) ==>
              SumOutAmounts(r.value.outs) == SumInAmounts(r.value.ins, utxos)
    ensures r.Success? && UniqueOutpoints(utxos) && SignaturesSound(p) ==> ValidateTransaction(p, r.value, utxos)
  {
    var me := p.publicKeyOf(key);
    var found := FindTxOutsForAmount(amount, Spendable(p, key, utxos, pool));
    if found.Failure? {
      return Failure(found.error);
    }
    var sel := found.value;
    SelectionUsable(p, key, utxos, pool, amount);
    var tx := NewTx(p, UnsignedIns(sel.included), CreateTxOuts(receiver, me, amount, sel.leftOver));
    var signed: seq<TxIn> := [];
    var i := 0;
    while i < |tx.ins|
      invariant 0 <= i <= |tx.ins|
      invariant |signed| == i
      invariant SignedPrefix(p, key, tx, signed)
    {
      if UniqueOutpoints(utxos) {
        OwnInputSigns(p, tx, i, key, utxos, sel.included[i]);
      }
      var s := SignTxIn(p, tx, i, key, utxos);
      if s.Failure? {
        return Failure(SigningFailed(s.error));
      }
      assert s.value == p.sign(key, tx.id);
      SignedAppend(p, key, tx, signed, s.value);
      signed := signed + [tx.ins[i].(signature := s.value)];
      i := i + 1;
    }
    AssembledTxFacts(p, key, receiver, amount, utxos, sel, tx, signed);
    r := Success(tx.(ins := signed));
  }
}
